=== FILE: README.md ===
# llm-document-parser, the text-handling core, in Dafny

`llm-document-parser` turns scanned bank statements into tables. An OCR engine reads the page. A language model is asked for the transactions as JSON, and pandas writes them to a CSV file. Around those foreign calls the repository has its own sequential logic. This project models that logic and proves properties of it:

- **LLM text preprocessing** (`preprocessing/llm_preprocessing.py`), module `Preprocessing` with `Text` and `Dates`. It chains:
  - line cleaning;
  - whitespace collapsing;
  - deletion of `Page N of M` / `CONFIDENTIAL`;
  - M/D/Y → `YYYY-MM-DD` date rewriting;
  - transaction-line filtering.

  Each step is switched on by a flag and runs in a fixed order.
- **LLM response postprocessing** (`postprocessing/llm_postprocessing.py`), module `Postprocessing`:
  - markdown stripping;
  - spacing normalisation;
  - the JSON-extraction fallbacks;
  - `clean_response`, both as written and as evidently intended.
- **CSV export** (`export_data.py`), module `Export`:
  - the folder-creation guard;
  - the probe for the first unused `<name><N>.csv`;
  - the write, over a model of the file system.
- **Configuration dispatch** (`cli.py`), module `Cli`: OCR-backend selection and export-type selection.
- **OCR bookkeeping** (`ocr.py`), module `Ocr`:
  - turning Tesseract's column-wise word table into records;
  - choosing the image files of a folder;
  - naming each image's output files after its stem.

Shared modules:
- `Results` holds `Option` and `Result`. An exception becomes an `Err` value naming it.
- `Decimal` holds `str(int)`, `int(str)` and `:02d`.
- `Text` holds `str.isspace`/`strip`/`splitlines`, `"\n".join`, list comprehensions, and the `re.sub(r'\s+', ' ', ·)` substitution that both processing modules use.

Each regular expression is hand-coded as a recogniser at a position. A substitution with `""` is a left-to-right scan that deletes every match it finds, as `re.sub` does.

These values are parameters of the model, not definitions:
- `json.loads` is the parameter `parse`.
- `standardize_amounts` is the parameter `amounts`.
- Pandas' reading and rendering of a table is the parameter `read`.

Behaviour of the code that the model keeps as written:
- `mkdir()` is called without `parents=True`, so only the last level of the output folder is created (`Export.EnsureFolderNotRecursive`).
- `save_results` does nothing for any export type but `"csv"`, although a comment in `config.py` also offers `"json"` and `"excel"` (`Cli.OtherExportTypesIgnored`).
- `export_as_csv` returns `None`; the model returns the new file-system state and the index used.
- `export_as_csv` fails before touching the disk when pandas cannot read the JSON, and when the table is empty (`df.sample()` raises).
- `cli.py:48` lacks the colon after `save_results`' parameter list, so the file does not parse. The model gives that function's evident meaning.

## Model

| member | source | states |
|---|---|---|
| `Text.SplitLines` | src/llm_document_parser/preprocessing/llm_preprocessing.py:21 | `splitlines()`: the list is empty exactly for empty text, no line holds a line boundary, and the lines joined are the text without its boundaries; where the cuts fall is stated by `Text.SplitLinesCons` |
| `Text.SplitJoin` | src/llm_document_parser/preprocessing/llm_preprocessing.py:22 | splitting `"\n".join(ls)` gives back `ls`, empty lines included, when every line is break-free and the last is non-empty |
| `Text.SplitLinesCons` | src/llm_document_parser/preprocessing/llm_preprocessing.py:21 | the first line ends at the first boundary: a break-free `p`, then `\r\n` or one other boundary character (a lone `\r` not followed by `\n`), splits as `[p]` followed by the lines of the rest |
| `Text.SplitCrLf` | src/llm_document_parser/preprocessing/llm_preprocessing.py:21 | `\r\n` between two lines is a single boundary |
| `Text.SplitEmptyLine` | src/llm_document_parser/preprocessing/llm_preprocessing.py:21 | two `\n` in a row yield an empty line between the lines around them |
| `Text.Strip` | src/llm_document_parser/preprocessing/llm_preprocessing.py:22 | `strip()`: the result is the text minus one leading and one trailing whitespace run, has no whitespace at either end, and is empty exactly when the text is all whitespace |
| `Text.StripIdempotent` | src/llm_document_parser/preprocessing/llm_preprocessing.py:22 | stripping twice is stripping once |
| `Text.StripKeepsNonSpace` | src/llm_document_parser/preprocessing/llm_preprocessing.py:22 | stripping removes whitespace only: the non-whitespace characters stay, in order |
| `Preprocessing.CleanLinesShape` | src/llm_document_parser/preprocessing/llm_preprocessing.py:21-22 | every line `clean_text` keeps is non-empty, stripped and free of line breaks |
| `Preprocessing.CleanTextLines` | src/llm_document_parser/preprocessing/llm_preprocessing.py:21-22 | the lines of the result are the stripped versions of the non-blank input lines, in their original order; none is empty |
| `Preprocessing.CleanTextIdempotent` | src/llm_document_parser/preprocessing/llm_preprocessing.py:21-22 | cleaning cleaned text changes nothing |
| `Text.CollapseShape` | src/llm_document_parser/preprocessing/llm_preprocessing.py:32 | after `re.sub(r'\s+', ' ', t)`: `' '` is the only whitespace, no two whitespace characters are adjacent, the result is empty only for empty text, and the first character keeps its class |
| `Text.CollapseKeepsNonSpace` | src/llm_document_parser/preprocessing/llm_preprocessing.py:32 | the non-whitespace characters come through unchanged and in order |
| `Text.CollapseChars` | src/llm_document_parser/preprocessing/llm_preprocessing.py:32 | no character appears that was not in the text, except `' '` |
| `Text.CollapseFixpoint` | src/llm_document_parser/preprocessing/llm_preprocessing.py:32 | text already in collapsed shape is left as it is |
| `Text.CollapseIdempotent` | src/llm_document_parser/preprocessing/llm_preprocessing.py:32 | collapsing twice is collapsing once |
| `Text.CollapseAppend` | src/llm_document_parser/preprocessing/llm_preprocessing.py:32 | the substitution distributes over concatenation when the seam does not fall between two whitespace characters |
| `Text.CollapsedHasNoLineBreak` | src/llm_document_parser/preprocessing/llm_preprocessing.py:32 | collapsed text has no line boundary left |
| `Text.DeleteMatchesUnchanged` | src/llm_document_parser/preprocessing/llm_preprocessing.py:42 | a deleting substitution leaves the text unchanged exactly when the scan meets no match |
| `Preprocessing.PageAtSound` | src/llm_document_parser/preprocessing/llm_preprocessing.py:42 | a page counter the recogniser reports is `page`, a space, digits, ` of `, digits, matched ignoring case, with the second digit group running to a non-digit or the end |
| `Preprocessing.PageAtComplete` | src/llm_document_parser/preprocessing/llm_preprocessing.py:42 | every case-insensitive `Page <digits> of <digits>` at a position is reported, with the length of its longest form |
| `Preprocessing.HeaderAtIff` | src/llm_document_parser/preprocessing/llm_preprocessing.py:42 | a match is reported at a position exactly when `Page \d+ of \d+` or `CONFIDENTIAL` matches there, ignoring case |
| `Preprocessing.HeaderAtLength` | src/llm_document_parser/preprocessing/llm_preprocessing.py:42 | the reported length is the whole greedy page counter, or 12 for the marker when no page counter matches (the first alternative wins) |
| `Preprocessing.RemoveHeadersFooters` | src/llm_document_parser/preprocessing/llm_preprocessing.py:42 | the result is never longer, is a subsequence of the text, and has no new character |
| `Preprocessing.RemoveHeadersFootersUnchanged` | src/llm_document_parser/preprocessing/llm_preprocessing.py:42 | the text is returned unchanged exactly when neither alternative of the pattern matches at any position, ignoring case |
| `Preprocessing.FooterDeleted` | src/llm_document_parser/preprocessing/llm_preprocessing.py:42 | `"pAgE 3 OF 10"` is deleted entirely: matching ignores case |
| `Preprocessing.DotlessIMatched` | src/llm_document_parser/preprocessing/llm_preprocessing.py:42 | under `IGNORECASE` the dotless `ı` matches the `I` of `CONFIDENTIAL` |
| `Dates.DigitRunMaximal` | src/llm_document_parser/preprocessing/llm_preprocessing.py:52 | the digit run at a position is all ASCII digits and ends at the text's end or a non-digit |
| `Dates.DateAt` | src/llm_document_parser/preprocessing/llm_preprocessing.py:52 | a reported date match has the pattern's shape: word boundaries at both ends, 1–2, 1–2 and 2–4 digit groups, and `/` or `-` separators |
| `Dates.DateAtComplete` | src/llm_document_parser/preprocessing/llm_preprocessing.py:52 | every position that has that shape is reported, with those group lengths |
| `Dates.GluedBeforeNotMatched` | src/llm_document_parser/preprocessing/llm_preprocessing.py:52 | `\b` rejects a date glued to a preceding word character |
| `Dates.GluedAfterNotMatched` | src/llm_document_parser/preprocessing/llm_preprocessing.py:52 | `\b` rejects a date glued to a following word character |
| `Dates.FixDate` | src/llm_document_parser/preprocessing/llm_preprocessing.py:53-56 | the rewrite is year, `-`, month, `-`, day; a 2-digit year gets `20` in front while 3- and 4-digit years are kept; the result is 6 characters longer than the year as rendered (`CenturyYear`), so 8 longer than a 2-digit year group |
| `Dates.Format02Pads` | src/llm_document_parser/preprocessing/llm_preprocessing.py:56 | `f"{int(g):02d}"` of a 1–2 digit group is the group left-padded with `0` to exactly two digits |
| `Dates.FixMatch` | src/llm_document_parser/preprocessing/llm_preprocessing.py:53-56 | a rewritten date consists of ASCII digits and `-` only |
| `Dates.NoDateUnchanged` | src/llm_document_parser/preprocessing/llm_preprocessing.py:57 | text with no date match is returned unchanged |
| `Dates.DatesIntroduceOnlyDigitsAndDash` | src/llm_document_parser/preprocessing/llm_preprocessing.py:57 | the substitution adds no character other than digits and `-` |
| `Dates.WholeTextDate` | src/llm_document_parser/preprocessing/llm_preprocessing.py:57 | a text that is one date match becomes exactly its rewrite |
| `Dates.OutOfRangeDateRewritten` | src/llm_document_parser/preprocessing/llm_preprocessing.py:52-57 | month and day are not range-checked: `13/45/2020` becomes `2020-13-45` |
| `Dates.MixedSeparatorsAndShortYear` | src/llm_document_parser/preprocessing/llm_preprocessing.py:52-57 | mixed separators are accepted and a 2-digit year gets `20`: `1-2/99` becomes `2099-01-02` |
| `Dates.ThreeDigitYearKept` | src/llm_document_parser/preprocessing/llm_preprocessing.py:55 | a 3-digit year is kept verbatim: `3/4/123` becomes `123-03-04` |
| `Preprocessing.TransactionFromIff` | src/llm_document_parser/preprocessing/llm_preprocessing.py:77 | the hand-coded search succeeds exactly when some position holds a date match followed, after at least one character, by a digit |
| `Preprocessing.ExtractTransactionLinesReadback` | src/llm_document_parser/preprocessing/llm_preprocessing.py:77-78 | the lines of the result are the input lines that match, in their original order |
| `Preprocessing.ExtractTransactionLinesIdempotent` | src/llm_document_parser/preprocessing/llm_preprocessing.py:77-78 | extracting from extracted lines changes nothing |
| `Preprocessing.DatedAmountLineKept` | src/llm_document_parser/preprocessing/llm_preprocessing.py:77 | a line with a date, then text, then an amount is kept |
| `Preprocessing.EnabledSteps` | src/llm_document_parser/preprocessing/llm_preprocessing.py:102-113 | a step is run exactly when its flag is set, and the steps run keep the fixed order clean, normalise, headers, dates, amounts, lines |
| `Preprocessing.OrderIsDistinct` | src/llm_document_parser/preprocessing/llm_preprocessing.py:102-113 | no step occurs twice in the fixed order |
| `Preprocessing.PreprocessRunsEnabledSteps` | src/llm_document_parser/preprocessing/llm_preprocessing.py:102-113 | `preprocess_text` is running its enabled steps one after another in the fixed order, whatever the steps compute |
| `Preprocessing.RunStepsAppend` | src/llm_document_parser/preprocessing/llm_preprocessing.py:102-113 | running two step lists one after the other is running their concatenation |
| `Preprocessing.AllOffIsIdentity` | src/llm_document_parser/preprocessing/llm_preprocessing.py:80-114 | with every flag off no step runs and the text is returned unchanged |
| `Preprocessing.NoLineBreakBeforeExtraction` | src/llm_document_parser/preprocessing/llm_preprocessing.py:104-111 | with `normalize=True`, the text reaching line extraction has no line break, given that the amounts step adds none |
| `Preprocessing.NormalizedExtractionAllOrNothing` | src/llm_document_parser/preprocessing/llm_preprocessing.py:104-113 | with `normalize=True` and `extract_lines=True`, the result is the whole normalised text or `""` |
| `Postprocessing.NextFence` | src/llm_document_parser/postprocessing/llm_postprocessing.py:21 | the fence found is the first one at or after the position; none means no fence follows |
| `Postprocessing.BlockAtSpec` | src/llm_document_parser/postprocessing/llm_postprocessing.py:21 | the lazy pattern matches an opening fence, the shortest stretch (line breaks included) and the next fence; with no later fence there is no match |
| `Postprocessing.RemoveBlocks` | src/llm_document_parser/postprocessing/llm_postprocessing.py:21 | deleting fenced blocks never lengthens the text, keeps a subsequence of it and adds no character |
| `Postprocessing.RemoveBlocksNoBacktick` | src/llm_document_parser/postprocessing/llm_postprocessing.py:21 | text without a backtick has no block and is kept |
| `Postprocessing.DropMarks` | src/llm_document_parser/postprocessing/llm_postprocessing.py:22 | no `#`, `*`, `_` or backtick is left, and every other character stays in order |
| `Postprocessing.DropMarksDeletesRuns` | src/llm_document_parser/postprocessing/llm_postprocessing.py:22 | deleting each maximal run of marks while scanning left to right, as the substitution does, gives the same text as dropping every mark |
| `Postprocessing.StripMarkdown` | src/llm_document_parser/postprocessing/llm_postprocessing.py:12-23 | `strip_markdown` leaves no mark character and never lengthens the text |
| `Postprocessing.StripMarkdownFixpoint` | src/llm_document_parser/postprocessing/llm_postprocessing.py:12-23 | text with no mark character is returned unchanged |
| `Postprocessing.StripMarkdownIdempotent` | src/llm_document_parser/postprocessing/llm_postprocessing.py:12-23 | stripping twice is stripping once |
| `Postprocessing.ShortestBlockRemoved` | src/llm_document_parser/postprocessing/llm_postprocessing.py:21-22 | in ```` ```a```b``` ```` the block ends at the first closing fence; the unpaired fence then goes with the marks, leaving `b` |
| `Postprocessing.NormalizeSpacingShape` | src/llm_document_parser/postprocessing/llm_postprocessing.py:33 | `normalize_spacing` gives text with no whitespace at either end and only single `' '` inside; the non-whitespace characters are kept in order and no other character is added |
| `Postprocessing.NormalizeSpacingIdempotent` | src/llm_document_parser/postprocessing/llm_postprocessing.py:33 | normalising twice is normalising once |
| `Postprocessing.JsonSpan` | src/llm_document_parser/postprocessing/llm_postprocessing.py:44 | `re.search(r'{.*}', ·, DOTALL)` finds a span exactly when a `{` precedes a `}`; the span runs from the first `{` to the last `}` |
| `Postprocessing.ExtractJson` | src/llm_document_parser/postprocessing/llm_postprocessing.py:43-47 | with no brace pair the result is `{}`; otherwise it is the parsed span, or `{"error": "Failed to extract JSON: " + message}` exactly when parsing the span fails |
| `Postprocessing.CleanResponseAsWritten` | src/llm_document_parser/postprocessing/llm_postprocessing.py:49-75 | as written, `clean_response` returns the response unchanged when every flag is false, and otherwise raises `TypeError: 'bool' object is not callable` |
| `Postprocessing.DefaultCallFails` | src/llm_document_parser/postprocessing/llm_postprocessing.py:51-52 | the default call `clean_response(r)` always raises |
| `Postprocessing.CleanResponse` | src/llm_document_parser/postprocessing/llm_postprocessing.py:66-75 | as intended: JSON is returned exactly when `extract_json` is set; the text keeps the non-whitespace characters of the (markdown-stripped, when that flag is set) response in order; with `normalize_spacing` it is stripped and collapsed; with only one text flag it is that helper's result; with neither it is the response |
| `Postprocessing.CleanResponseComposes` | src/llm_document_parser/postprocessing/llm_postprocessing.py:66-75 | each flag applies its helper to what the earlier steps left: spacing is normalised after markdown stripping, and JSON is extracted from the text the text steps produce |
| `Postprocessing.CleanResponseNoMarks` | src/llm_document_parser/postprocessing/llm_postprocessing.py:66-70 | with markdown stripping on, no mark character survives, whether or not spacing is normalised afterwards |
| `Postprocessing.CleanResponseAgrees` | src/llm_document_parser/postprocessing/llm_postprocessing.py:66-75 | wherever the code as written returns, the corrected function returns the same text |
| `Decimal.NatToString` | src/llm_document_parser/export_data.py:19 | `str(n)` is a non-empty digit string without a leading zero whose value is `n` |
| `Decimal.NatToStringInjective` | src/llm_document_parser/export_data.py:19 | distinct indices render differently |
| `Export.Entries` | src/llm_document_parser/export_data.py:20 | a name is taken in the folder exactly when `(folder / name).exists()` |
| `Export.EnsureFolder` | src/llm_document_parser/export_data.py:12-15 | an existing directory is left alone; otherwise one directory is created. It fails with `FileExistsError` when a file is in the way, with `NotADirectoryError` exactly when a folder above is a file, and otherwise with `FileNotFoundError` when the parent does not exist; file-system validity is kept |
| `Export.EnsureFolderCreates` | src/llm_document_parser/export_data.py:13-15 | a missing folder whose parent exists is created |
| `Export.EnsureFolderNotRecursive` | src/llm_document_parser/export_data.py:15 | a folder two levels below any existing directory is not created: the call fails, with `FileNotFoundError` unless a folder above is a file |
| `Export.EnsureFolderUnderFile` | src/llm_document_parser/export_data.py:15 | when any folder above the output folder is a regular file, `mkdir()` raises `NotADirectoryError` |
| `Export.CsvNameInjective` | src/llm_document_parser/export_data.py:19 | distinct indices give distinct file names |
| `Export.ProbeIndex` | src/llm_document_parser/export_data.py:17-22 | the probe stops at a name not in the folder, every smaller index's name is in the folder, and the index is at most the number of entries, so the loop ends |
| `Export.ProbeIsDetermined` | src/llm_document_parser/export_data.py:17-22 | the chosen index is the only one that is free with every smaller one taken |
| `Export.ExportAsCsv` | src/llm_document_parser/export_data.py:8-25 | a read failure or an empty table fails before the disk is touched, and a folder-creation failure is passed on. Otherwise, when the file system allows the writes, the CSV is written under a name the folder did not hold, every smaller index is taken, validity is kept, and nothing else changes |
| `Export.NoOverwrite` | src/llm_document_parser/export_data.py:17-25 | after the write the files are the old ones, with old contents, plus exactly one new name |
| `Export.NextExportIndex` | src/llm_document_parser/export_data.py:17-25 | when the indices below `k` are taken and `k` is free, the export uses `k` and takes exactly that name |
| `Export.ExportSeveral` | src/llm_document_parser/export_data.py:17-25 | successive exports into a folder with none of the names pick indices 0, 1, 2, … in turn |
| `Cli.LoadOcrModelFromConfig` | src/llm_document_parser/cli.py:23-45 | exactly the four names load a backend, each of its own kind; rapid gets the three model files and tesseract gets the configured tessdata path; any other name raises `ValueError` with the message ending in that name |
| `Cli.LoadByName` | src/llm_document_parser/cli.py:31-43 | loading a backend's own name gives that backend, configured as the source configures it |
| `Cli.DistinctLoaders` | src/llm_document_parser/cli.py:31-43 | two known names load the same backend only if they are the same name |
| `Cli.UnknownModelNamed` | src/llm_document_parser/cli.py:45 | the error message for an unknown name ends with that name |
| `Cli.MatchingIsExact` | src/llm_document_parser/cli.py:31-42 | matching is case- and space-sensitive: `Rapid`, ` easy` and `TESSERACT` are rejected |
| `Cli.SaveResults` | src/llm_document_parser/cli.py:48-58 | exactly one export call is made when the type is `"csv"`, none otherwise, with the arguments passed to the right parameters |
| `Cli.OtherExportTypesIgnored` | src/llm_document_parser/cli.py:57-58 | `"json"`, `"excel"` and `"CSV"` export nothing |
| `Ocr.PositionsSpec` | src/llm_document_parser/ocr.py:64-66 | an index is selected exactly when its element passes the test, and the selected indices increase |
| `Ocr.KeptSpec` | src/llm_document_parser/ocr.py:64-66 | a token's index is kept exactly when its stripped text is non-empty; the kept indices increase and are no more than the tokens |
| `Ocr.ExtractWordBoxes` | src/llm_document_parser/ocr.py:63-75 | one record per kept index, in order, every field read at that same index. It raises `IndexError` exactly when some kept index lies beyond another column |
| `Ocr.WordBoxesShape` | src/llm_document_parser/ocr.py:63-74 | there are no more records than tokens, and every record's text is non-empty and stripped |
| `Ocr.EqualColumnsNeverFail` | src/llm_document_parser/ocr.py:64-74 | a table whose columns have equal length never raises |
| `Ocr.IsImageFileIff` | src/llm_document_parser/ocr.py:113 | a file is processed exactly when its name ends with `.png`, `.jpg` or `.jpeg` in any letter case |
| `Ocr.IsImageFileIgnoresCase` | src/llm_document_parser/ocr.py:113 | names that differ only in letter case get the same verdict |
| `Ocr.ImageNameEndsInG` | src/llm_document_parser/ocr.py:113 | every accepted name ends in `g` or `G`, so `scan.png.txt` is skipped |
| `Ocr.ImagesToProcess` | src/llm_document_parser/ocr.py:112-113 | the processed entries are exactly the image entries, in listing order |
| `Ocr.Basename` | src/llm_document_parser/ocr.py:89 | `os.path.basename` is the suffix after the last `/` and contains no `/` |
| `Ocr.Stem` | src/llm_document_parser/ocr.py:89 | `splitext(name)[0]` is a prefix of the name. Either it is the whole name, or a `.` follows it with no later `.` and it is not only dots (leading-dot names have no extension). It is the whole name exactly when the name has no `.` or only dots precede its last `.` |
| `Ocr.StemOfExtended` | src/llm_document_parser/ocr.py:89 | the stem of `base.ext` is `base` |
| `Ocr.BasenameOfJoin` | src/llm_document_parser/ocr.py:114 | the basename of `os.path.join(folder, name)` is the listed name |
| `Ocr.ProcessFolder` | src/llm_document_parser/ocr.py:102-116 | each processed image writes `<output_dir>/<stem>.txt` and `<output_dir>/<stem>.json`, where the stem is taken from its listed name, in listing order |
| `Ocr.OutputsDistinct` | src/llm_document_parser/ocr.py:94-97 | an image's text and JSON outputs never share a path |
| `Ocr.SameStemSameOutputs` | src/llm_document_parser/ocr.py:89-97 | two images that differ only in extension write to the same two files |

## Left out

- OCR engines and image handling are foreign library calls and pixel arithmetic. This covers the `pytesseract` calls, `extract_text`, `preprocess_image`, `convert_doc_docling.py` and `ocr_preprocessing.py`. The word table that `extract_text_with_bboxes` reads is an input of `Ocr.ExtractWordBoxes`.
- The file writes and `os.makedirs` of `process_image` and `process_folder` are left out. Only the paths written are modelled (`Ocr.OutputPaths`, `Ocr.ProcessFolder`), and the directory listing is an input.
- LLM calls (`llm.py`, `instructor_llm.py`) go to a network service that is not part of this model.
- `standardize_amounts` depends on Python's `float` parsing and `repr`. It is the uninterpreted parameter `amounts` of the pipeline. The no-line-break lemmas assume it adds no line break.
- `json.loads` is the parameter `parse`, which yields a value or the text of the exception it raised.
- The pandas parts of `export_data.py` (`read_json`, `DataFrame`, the printed sample, `to_csv`) are the parameter `read`. It gives the row count and the CSV text. Of `df.sample()` only its failure on an empty table is kept.
- Console output is left out: the progress messages of `export_data.py:14` and `ocr.py:115`, the sample printed at `export_data.py:10`, and the data printed by `export_as_json`.
- `export_as_json` is not modelled. It opens the folder path itself for writing and ignores `output_file_name`, so it cannot succeed; nothing calls it.
- Configuration loading (`config.py`, the module-level `config.json` read in `ocr.py`), the `__main__` blocks, `gradio_app.py` and the demo script are left out. The tessdata path, the three RapidOCR model files and the export type names appear as constants.
- Concurrency: two runs racing between the probe and the write are not modelled.
- `Text.IsSpace`, `Dates.IsWordChar`, `Decimal.IsAsciiDigit`: `\s`, `\w` and `\d` are modelled as Python's whitespace set, ASCII word characters and ASCII digits. Python's `str` patterns also accept other Unicode letters and decimal digits.
- `Preprocessing.FoldMatches`: `IGNORECASE` is modelled as ASCII case folding plus the dotless `ı` and dotted `İ` that `re` also matches to `I`; no other Unicode folding is modelled.
- `Ocr.Lower`: `str.lower()` is modelled on ASCII letters only; other characters are left as they are.
- `Export.EnsureFolder`, `Export.ExportAsCsv`: the file system is only which paths are directories and which are files, so the permission and I/O errors of `mkdir()` and `to_csv` (`PermissionError`, a read-only or full disk, other `OSError`s) are not modelled; `mkdir()` succeeds whenever the parent is a directory and the write always succeeds.
- `Export.ExportAsCsv`: paths are sequences of components. The parsing of `Path(output_folder)`, and a base name that itself contains `/`, are not modelled.
- `Ocr.ExtractWordBoxes`: the confidence column is modelled as integers; some `pytesseract` versions report floats.
- `Dates.DigitRun` states only that the run fits in the text. Its maximality is the separate lemma `Dates.DigitRunMaximal`.
- `Cli.SaveResults` returns the export call it makes instead of performing it. What that call does is `Export.ExportAsCsv`.

## Findings

| source | as written | input that shows it | evidently intended | confidence | as-written member | corrected member |
|---|---|---|---|---|---|---|
| src/llm_document_parser/postprocessing/llm_postprocessing.py:51-53 | The parameters `strip_markdown`, `normalize_spacing` and `extract_json` shadow the module functions of the same names. Lines 67, 70 and 73 then call a `bool`, which raises `TypeError: 'bool' object is not callable` whenever a flag is true. | `clean_response("x")` with the default flags `True, True, False` | each flag applies the module helper of the same name | high; not executed | `Postprocessing.CleanResponseAsWritten` (shown by `Postprocessing.DefaultCallFails`) | `Postprocessing.CleanResponse` (with `Postprocessing.CleanResponseComposes`, `Postprocessing.CleanResponseNoMarks` and `Postprocessing.CleanResponseAgrees`) |

=== FILE: cli.dfy ===
/** The command-line entry's two selectors (`cli.py`): which OCR backend the
    configured name loads, and whether the results are exported. */
module Cli {
  import opened Results

  /** `TESSERACT_TESSDATA_LOCATION` in `config.py`. */
  const TessdataLocation := "/usr/share/tesseract-ocr/4.00/tessdata"

  const RapidDetModel := "PP-OCRv4/ch_PP-OCRv4_det_server_infer.onnx"
  const RapidRecModel := "PP-OCRv3/ch_PP-OCRv3_rec_infer.onnx"
  const RapidClsModel := "PP-OCRv3/ch_ppocr_mobile_v2.0_cls_train.onnx"

  /** A loaded backend, by the loader that built it and what it was given. */
  datatype OcrBackend =
    | RapidOcr(detModel: string, recModel: string, clsModel: string)
    | EasyOcr
    | OcrMac
    | Tesseract(tessdata: string)

  /** The configuration name that selects each kind of backend. */
  function BackendName(b: OcrBackend): string {
    match b
    case RapidOcr(_, _, _) => "rapid"
    case EasyOcr => "easy"
    case OcrMac => "ocrmac"
    case Tesseract(_) => "tesseract"
  }

  predicate IsKnownModel(name: string) {
    name == "rapid" || name == "easy" || name == "ocrmac" || name == "tesseract"
  }

  datatype ConfigError = ValueError(message: string)

  const UnknownModelPrefix := "Unknown OCR model type in config: "

  /** `load_ocr_model_from_config`: the four names are compared exactly, in
      order; any other name raises `ValueError` naming it. */
  function LoadOcrModelFromConfig(modelType: string): (r: Result<OcrBackend, ConfigError>)
    ensures r.Ok? <==> IsKnownModel(modelType)
    ensures r.Ok? ==> BackendName(r.value) == modelType
    ensures r.Ok? && r.value.Tesseract? ==> r.value.tessdata == TessdataLocation
    ensures r.Ok? && r.value.RapidOcr? ==>
      r.value == RapidOcr(RapidDetModel, RapidRecModel, RapidClsModel)
    ensures r.Err? ==> r.error.message == UnknownModelPrefix + modelType
  {
    if modelType == "rapid" then Ok(RapidOcr(RapidDetModel, RapidRecModel, RapidClsModel))
    else if modelType == "easy" then Ok(EasyOcr)
    else if modelType == "ocrmac" then Ok(OcrMac)
    else if modelType == "tesseract" then Ok(Tesseract(TessdataLocation))
    else Err(ValueError(UnknownModelPrefix + modelType))
  }

  /** The backend a known name loads: the canonical one of its kind. */
  function Canonical(b: OcrBackend): OcrBackend {
    match b
    case RapidOcr(_, _, _) => RapidOcr(RapidDetModel, RapidRecModel, RapidClsModel)
    case EasyOcr => EasyOcr
    case OcrMac => OcrMac
    case Tesseract(_) => Tesseract(TessdataLocation)
  }

  /** Loading a backend's own name gives that kind of backend, configured as
      the source configures it. */
  lemma LoadByName(b: OcrBackend)
    ensures LoadOcrModelFromConfig(BackendName(b)) == Ok(Canonical(b))
  {
  }

  /** Different names load different backends. */
  lemma DistinctLoaders(m: string, n: string)
    requires LoadOcrModelFromConfig(m).Ok? && LoadOcrModelFromConfig(n).Ok?
    ensures LoadOcrModelFromConfig(m) == LoadOcrModelFromConfig(n) <==> m == n
  {
  }

  /** The error message contains the rejected name, at its end. */
  lemma UnknownModelNamed(modelType: string)
    requires !IsKnownModel(modelType)
    ensures var msg := LoadOcrModelFromConfig(modelType).error.message;
      |msg| >= |modelType| && msg[|msg| - |modelType|..] == modelType
  {
    var msg := UnknownModelPrefix + modelType;
    assert msg[|UnknownModelPrefix|..] == modelType;
  }

  /** Matching is exact: case and surrounding spaces count. */
  lemma MatchingIsExact()
    ensures LoadOcrModelFromConfig("Rapid").Err?
    ensures LoadOcrModelFromConfig(" easy").Err?
    ensures LoadOcrModelFromConfig("TESSERACT").Err?
  {
    assert "Rapid"[0] != "rapid"[0];
    assert " easy"[0] != "easy"[0] && |" easy"| != |"ocrmac"|;
  }

  /** The export call `save_results` makes, with its keyword arguments. */
  datatype ExportCall = ExportAsCsv(jsonData: string, outputFolder: string, outputFileName: string)

  /** `save_results`: the calls it makes, in order. */
  function SaveResults(exportType: string, outputFileName: string, jsonData: string, outputFolder: string): (calls: seq<ExportCall>)
    ensures |calls| == (if exportType == "csv" then 1 else 0)
    ensures forall c :: c in calls ==>
      c.jsonData == jsonData && c.outputFolder == outputFolder && c.outputFileName == outputFileName
  {
    if exportType == "csv" then [ExportAsCsv(jsonData, outputFolder, outputFileName)] else []
  }

  /** The other documented export types do nothing at all. */
  lemma OtherExportTypesIgnored(outputFileName: string, jsonData: string, outputFolder: string)
    ensures SaveResults("json", outputFileName, jsonData, outputFolder) == []
    ensures SaveResults("excel", outputFileName, jsonData, outputFolder) == []
    ensures SaveResults("CSV", outputFileName, jsonData, outputFolder) == []
  {
    assert "CSV"[0] != "csv"[0];
  }
}

=== FILE: dates.dfy ===
/** The date pattern `\b(\d{1,2})[/-](\d{1,2})[/-](\d{2,4})\b` shared by
    `standardize_dates` and `extract_transaction_lines`, recognised by hand,
    and the rewriting of a matched date to `YYYY-MM-DD`. */
module Dates {
  import opened Results
  import opened Decimal

  /** `\w` for the characters this model distinguishes: letters, digits, `_`. */
  predicate IsWordChar(c: char) {
    'a' <= c <= 'z' || 'A' <= c <= 'Z' || IsAsciiDigit(c) || c == '_'
  }

  /** `\b` at position `i`: exactly one of the characters around it is a word character. */
  predicate WordBoundary(s: string, i: nat)
    requires i <= |s|
  {
    (i > 0 && IsWordChar(s[i - 1])) != (i < |s| && IsWordChar(s[i]))
  }

  predicate IsDateSep(c: char) {
    c == '/' || c == '-'
  }

  /** Length of the run of digits starting at `i` (`DigitRunMaximal` says
      which run). */
  function DigitRun(s: string, i: nat): (n: nat)
    requires i <= |s|
    ensures i + n <= |s|
    decreases |s| - i
  {
    if i < |s| && IsAsciiDigit(s[i]) then 1 + DigitRun(s, i + 1) else 0
  }

  predicate DigitsAt(s: string, i: nat, n: nat) {
    i + n <= |s| && forall k :: i <= k < i + n ==> IsAsciiDigit(s[k])
  }

  /** The run is all digits and is followed by a non-digit or the end. */
  lemma {:induction false} DigitRunMaximal(s: string, i: nat)
    requires i <= |s|
    ensures DigitsAt(s, i, DigitRun(s, i))
    ensures i + DigitRun(s, i) == |s| || !IsAsciiDigit(s[i + DigitRun(s, i)])
    decreases |s| - i
  {
    if i < |s| && IsAsciiDigit(s[i]) {
      DigitRunMaximal(s, i + 1);
    }
  }

  /** A run of `n` digits followed by a non-digit is the whole run. */
  lemma {:induction false} RunOfDigits(s: string, i: nat, n: nat)
    requires DigitsAt(s, i, n) && (i + n == |s| || !IsAsciiDigit(s[i + n]))
    ensures DigitRun(s, i) == n
    decreases n
  {
    if n > 0 {
      RunOfDigits(s, i + 1, n - 1);
    }
  }

  /** A text with `n` digits at `i` has a digit run there at least `n` long. */
  lemma {:induction false} DigitRunAtLeast(s: string, i: nat, n: nat)
    requires DigitsAt(s, i, n)
    ensures DigitRun(s, i) >= n
    decreases n
  {
    if n > 0 {
      DigitRunAtLeast(s, i + 1, n - 1);
    }
  }

  /** The pattern matches at `i` with groups of `a`, `b` and `c` digits: this
      is the regular expression read declaratively, any way of matching. */
  predicate DateShapeAt(s: string, i: nat, a: nat, b: nat, c: nat) {
    && i + a + b + c + 2 <= |s|
    && WordBoundary(s, i)
    && 1 <= a <= 2 && DigitsAt(s, i, a) && IsDateSep(s[i + a])
    && 1 <= b <= 2 && DigitsAt(s, i + a + 1, b) && IsDateSep(s[i + a + 1 + b])
    && 2 <= c <= 4 && DigitsAt(s, i + a + b + 2, c)
    && WordBoundary(s, i + a + b + 2 + c)
  }

  /** A match of the pattern, by the lengths of its month, day and year groups. */
  datatype DateMatch = DateMatch(monthLen: nat, dayLen: nat, yearLen: nat)
  {
    /** Where the match ends when it starts at `i`. */
    function End(i: nat): nat {
      i + monthLen + dayLen + yearLen + 2
    }
  }

  /** The match at `i`, if any. Each group is followed by a non-digit (a
      separator or a word boundary), so a group can only be a whole run of
      digits and the backtracking matcher has exactly one way to succeed:
      what it finds is a match (the `ensures`), and it finds every match
      (`DateAtComplete`). */
  function DateAt(s: string, i: nat): (m: Option<DateMatch>)
    requires i <= |s|
    ensures m.Some? ==> DateShapeAt(s, i, m.value.monthLen, m.value.dayLen, m.value.yearLen)
  {
    var a := DigitRun(s, i);
    var j := i + a + 1;
    if !(WordBoundary(s, i) && 1 <= a <= 2 && j <= |s| && IsDateSep(s[j - 1])) then None
    else
      var b := DigitRun(s, j);
      var k := j + b + 1;
      if !(1 <= b <= 2 && k <= |s| && IsDateSep(s[k - 1])) then None
      else
        var c := DigitRun(s, k);
        if !(2 <= c <= 4 && WordBoundary(s, k + c)) then None
        else
          DigitRunMaximal(s, i);
          DigitRunMaximal(s, j);
          DigitRunMaximal(s, k);
          ShapeOfRuns(s, i, a, b, c);
          Some(DateMatch(a, b, c))
  }

  lemma ShapeOfRuns(s: string, i: nat, a: nat, b: nat, c: nat)
    requires i + a + b + c + 2 <= |s|
    requires WordBoundary(s, i) && WordBoundary(s, i + a + b + 2 + c)
    requires 1 <= a <= 2 && 1 <= b <= 2 && 2 <= c <= 4
    requires DigitsAt(s, i, a) && DigitsAt(s, i + a + 1, b) && DigitsAt(s, i + a + b + 2, c)
    requires IsDateSep(s[i + a]) && IsDateSep(s[i + a + 1 + b])
    ensures DateShapeAt(s, i, a, b, c)
  {
  }

  /** Any way the pattern matches at `i` is the match `DateAt` finds. */
  lemma DateAtComplete(s: string, i: nat, a: nat, b: nat, c: nat)
    requires i <= |s| && DateShapeAt(s, i, a, b, c)
    ensures DateAt(s, i) == Some(DateMatch(a, b, c))
  {
    RunOfDigits(s, i, a);
    RunOfDigits(s, i + a + 1, b);
    RunOfDigits(s, i + a + b + 2, c);
  }

  predicate IsDateGroups(month: string, day: string, year: string) {
    && 1 <= |month| <= 2 && AllDigits(month)
    && 1 <= |day| <= 2 && AllDigits(day)
    && 2 <= |year| <= 4 && AllDigits(year)
  }

  lemma SliceDigits(s: string, i: nat, n: nat)
    requires DigitsAt(s, i, n)
    ensures AllDigits(s[i..i + n])
  {
    assert forall k {:trigger s[i..i + n][k]} :: 0 <= k < n ==> s[i..i + n][k] == s[i + k];
  }

  /** `"0" + g` for a one-digit group, `g` itself for a two-digit one. */
  function ZeroPad2(g: string): string {
    if |g| == 1 then "0" + g else g
  }

  /** The year as `fix` writes it: a two-digit year gets the prefix `20`. */
  function CenturyYear(year: string): string {
    if |year| == 2 then "20" + year else year
  }

  /** `fix` of `standardize_dates`: `f"{year}-{int(month):02d}-{int(day):02d}"`. */
  function FixDate(month: string, day: string, year: string): (r: string)
    requires IsDateGroups(month, day, year)
    ensures r == CenturyYear(year) + "-" + ZeroPad2(month) + "-" + ZeroPad2(day)
    ensures |r| == |CenturyYear(year)| + 6
  {
    Format02Pads(month);
    Format02Pads(day);
    CenturyYear(year) + "-" + Format02(DigitsValue(month)) + "-" + Format02(DigitsValue(day))
  }

  /** Rendering the value of one or two digits with `:02d` is padding the text. */
  lemma Format02Pads(g: string)
    requires 1 <= |g| <= 2 && AllDigits(g)
    ensures DigitsValue(g) < 100
    ensures Format02(DigitsValue(g)) == ZeroPad2(g)
  {
    if |g| == 1 {
      assert g == [g[0]];
      DigitsValueOne(g[0]);
      var v := DigitValue(g[0]);
      assert v / 10 == 0 && v % 10 == v;
    } else {
      assert g == [g[0], g[1]];
      DigitsValueTwo(g[0], g[1]);
      var d0, d1 := DigitValue(g[0]), DigitValue(g[1]);
      var v := d0 * 10 + d1;
      assert v / 10 == d0 && v % 10 == d1;
    }
  }

  /** The replacement for the match `d` at `i`: `fix` applied to the groups
      cut from the text. */
  function FixMatch(s: string, i: nat, d: DateMatch): (r: string)
    requires DateShapeAt(s, i, d.monthLen, d.dayLen, d.yearLen)
    ensures forall c :: c in r ==> IsAsciiDigit(c) || c == '-'
  {
    var j, k := i + d.monthLen + 1, i + d.monthLen + d.dayLen + 2;
    SliceDigits(s, i, d.monthLen);
    SliceDigits(s, j, d.dayLen);
    SliceDigits(s, k, d.yearLen);
    var month, day, year := s[i..i + d.monthLen], s[j..j + d.dayLen], s[k..k + d.yearLen];
    FixDateChars(month, day, year);
    FixDate(month, day, year)
  }

  /** The rewritten date consists of digits and the two dashes. */
  lemma FixDateChars(month: string, day: string, year: string)
    requires IsDateGroups(month, day, year)
    ensures forall c :: c in FixDate(month, day, year) ==> IsAsciiDigit(c) || c == '-'
  {
    var y, m, d := CenturyYear(year), ZeroPad2(month), ZeroPad2(day);
    assert AllDigits(y) && AllDigits(m) && AllDigits(d);
    assert FixDate(month, day, year) == y + "-" + m + "-" + d;
  }

  /** `pattern.sub(fix, s[i..])` with the pattern's look-behind seeing all of `s`. */
  function DatesFrom(s: string, i: nat): (r: string)
    requires i <= |s|
    decreases |s| - i
  {
    if i == |s| then []
    else
      match DateAt(s, i)
      case Some(d) => FixMatch(s, i, d) + DatesFrom(s, d.End(i))
      case None => [s[i]] + DatesFrom(s, i + 1)
  }

  /** `standardize_dates`. */
  function StandardizeDates(s: string): string {
    DatesFrom(s, 0)
  }

  predicate NoDateFrom(s: string, i: nat)
    requires i <= |s|
  {
    forall k :: i <= k <= |s| ==> DateAt(s, k).None?
  }

  /** Text in which the pattern never matches is left exactly as it was. */
  lemma {:induction false} NoDateUnchanged(s: string, i: nat)
    requires i <= |s| && NoDateFrom(s, i)
    ensures DatesFrom(s, i) == s[i..]
    decreases |s| - i
  {
    if i < |s| {
      NoDateUnchanged(s, i + 1);
      assert s[i..] == [s[i]] + s[i + 1..];
    }
  }

  /** Every character of the rewritten text is a character of the input, a
      digit, or the `-` the rewriting inserts. */
  lemma {:induction false} DatesIntroduceOnlyDigitsAndDash(s: string, i: nat)
    requires i <= |s|
    ensures forall c :: c in DatesFrom(s, i) ==> c in s || IsAsciiDigit(c) || c == '-'
    decreases |s| - i
  {
    if i < |s| {
      var m := DateAt(s, i);
      if m.Some? {
        DatesIntroduceOnlyDigitsAndDash(s, m.value.End(i));
      } else {
        DatesIntroduceOnlyDigitsAndDash(s, i + 1);
      }
    }
  }

  /** A text that is exactly one date is replaced by that date rewritten. */
  lemma WholeTextDate(s: string, d: DateMatch)
    requires 0 < |s| && DateAt(s, 0) == Some(d) && d.End(0) == |s|
    ensures StandardizeDates(s) == FixMatch(s, 0, d)
  {
    assert DatesFrom(s, |s|) == [];
  }

  lemma OutOfRangeDateFix()
    ensures DateShapeAt("13/45/2020", 0, 2, 2, 4)
    ensures FixMatch("13/45/2020", 0, DateMatch(2, 2, 4)) == "2020-13-45"
  {
    var s := "13/45/2020";
    assert s[0..2] == "13" && s[3..5] == "45" && s[6..10] == "2020";
  }

  /** Month and day are not range-checked, and a four-digit year is kept verbatim. */
  lemma OutOfRangeDateRewritten()
    ensures StandardizeDates("13/45/2020") == "2020-13-45"
  {
    OutOfRangeDateFix();
    DateAtComplete("13/45/2020", 0, 2, 2, 4);
    WholeTextDate("13/45/2020", DateMatch(2, 2, 4));
  }

  lemma MixedSeparatorsFix()
    ensures DateShapeAt("1-2/99", 0, 1, 1, 2)
    ensures FixMatch("1-2/99", 0, DateMatch(1, 1, 2)) == "2099-01-02"
  {
    var s := "1-2/99";
    assert s[0..1] == "1" && s[2..3] == "2" && s[4..6] == "99";
  }

  /** Mixed separators are accepted, one-digit groups are padded, and a
      two-digit year is placed in the 2000s. */
  lemma MixedSeparatorsAndShortYear()
    ensures StandardizeDates("1-2/99") == "2099-01-02"
  {
    MixedSeparatorsFix();
    DateAtComplete("1-2/99", 0, 1, 1, 2);
    WholeTextDate("1-2/99", DateMatch(1, 1, 2));
  }

  lemma ThreeDigitYearFix()
    ensures DateShapeAt("3/4/123", 0, 1, 1, 3)
    ensures FixMatch("3/4/123", 0, DateMatch(1, 1, 3)) == "123-03-04"
  {
    var s := "3/4/123";
    assert s[0..1] == "3" && s[2..3] == "4" && s[4..7] == "123";
  }

  /** A three-digit year is kept verbatim, not widened. */
  lemma ThreeDigitYearKept()
    ensures StandardizeDates("3/4/123") == "123-03-04"
  {
    ThreeDigitYearFix();
    DateAtComplete("3/4/123", 0, 1, 1, 3);
    WholeTextDate("3/4/123", DateMatch(1, 1, 3));
  }

  /** A date glued to a word character is not a match: `\b` fails before it. */
  lemma GluedBeforeNotMatched()
    ensures DateAt("x1/2/2020", 1).None?
  {
  }

  /** A date glued to a word character is not a match: `\b` fails after it. */
  lemma GluedAfterNotMatched()
    ensures DateAt("1/2/2020x", 0).None?
  {
    var s := "1/2/2020x";
    RunOfDigits(s, 0, 1);
    RunOfDigits(s, 2, 1);
    RunOfDigits(s, 4, 4);
  }
}

=== FILE: decimal.dfy ===
/** Decimal digit strings: Python's `str(n)` for a non-negative `int`, and
    `int(s)` for a string of ASCII digits. */
module Decimal {

  predicate IsAsciiDigit(c: char) {
    '0' <= c <= '9'
  }

  predicate AllDigits(s: string) {
    forall i :: 0 <= i < |s| ==> IsAsciiDigit(s[i])
  }

  function DigitChar(d: nat): (c: char)
    requires d < 10
    ensures IsAsciiDigit(c)
  {
    ['0', '1', '2', '3', '4', '5', '6', '7', '8', '9'][d]
  }

  function DigitValue(c: char): (d: nat)
    requires IsAsciiDigit(c)
    ensures d < 10 && DigitChar(d) == c
  {
    (c as int - '0' as int) as nat
  }

  /** `int(s)` for a non-empty string of ASCII digits (leading zeros allowed). */
  function DigitsValue(s: string): (v: nat)
    requires AllDigits(s)
  {
    if s == [] then 0 else DigitsValue(s[..|s| - 1]) * 10 + DigitValue(s[|s| - 1])
  }

  lemma DigitsValueOne(c: char)
    requires IsAsciiDigit(c)
    ensures DigitsValue([c]) == DigitValue(c)
  {
    assert [c][..0] == [];
  }

  lemma DigitsValueTwo(c: char, d: char)
    requires IsAsciiDigit(c) && IsAsciiDigit(d)
    ensures DigitsValue([c, d]) == DigitValue(c) * 10 + DigitValue(d)
  {
    assert [c, d][..1] == [c];
    DigitsValueOne(c);
  }

  /** `str(n)`: the shortest decimal rendering, without leading zeros. */
  function NatToString(n: nat): (s: string)
    ensures s != [] && AllDigits(s)
    ensures |s| > 1 ==> s[0] != '0'
    ensures DigitsValue(s) == n
  {
    if n < 10 then [DigitChar(n)]
    else
      var s := NatToString(n / 10) + [DigitChar(n % 10)];
      assert s[..|s| - 1] == NatToString(n / 10);
      s
  }

  /** Distinct numbers render as distinct strings. */
  lemma NatToStringInjective(m: nat, n: nat)
    ensures NatToString(m) == NatToString(n) ==> m == n
  {
  }

  /** `f"{v:02d}"` for a value below 100: exactly two zero-padded digits. */
  function Format02(v: nat): (s: string)
    requires v < 100
    ensures |s| == 2 && AllDigits(s)
    ensures DigitsValue(s) == v
  {
    var s := [DigitChar(v / 10), DigitChar(v % 10)];
    assert s[..1] == [DigitChar(v / 10)] && [DigitChar(v / 10)][..0] == [];
    assert DigitsValue(s[..1]) == v / 10;
    s
  }
}

=== FILE: export.dfy ===
/** Writing the extracted table to disk (`export_data.py`): the folder guard,
    the probe for the first unused `<name><N>.csv`, and the write. Pandas'
    reading and rendering of the table is a parameter. */
module Export {
  import opened Results
  import opened Decimal

  // ---------------------------------------------------------------------
  // A file system of directories and files, addressed by component paths

  /** A path as its components; `[]` is the working directory. */
  type Path = seq<string>

  function Parent(p: Path): Path
    requires p != []
  {
    p[..|p| - 1]
  }

  datatype FileSystem = FileSystem(dirs: set<Path>, files: map<Path, string>)

  /** The working directory exists, every entry's parent is a directory, and
      no path is both a directory and a file. */
  predicate Valid(fs: FileSystem) {
    && [] in fs.dirs
    && (forall p :: p in fs.dirs && p != [] ==> Parent(p) in fs.dirs)
    && (forall p :: p in fs.files ==> p != [] && Parent(p) in fs.dirs && p !in fs.dirs)
  }

  /** `Path.exists()`. */
  predicate Exists(fs: FileSystem, p: Path) {
    p in fs.dirs || p in fs.files
  }

  /** The names `folder` holds, files and sub-directories alike. */
  function Entries(fs: FileSystem, folder: Path): (names: set<string>)
    ensures forall n :: n in names <==> Exists(fs, folder + [n])
  {
    var names := set p | p in fs.dirs + fs.files.Keys && |p| == |folder| + 1 && p[..|folder|] == folder :: p[|folder|];
    forall n ensures n in names <==> Exists(fs, folder + [n]) {
      var q := folder + [n];
      if Exists(fs, q) {
        assert q[..|folder|] == folder && q[|folder|] == n;
      }
      if n in names {
        var p :| p in fs.dirs + fs.files.Keys && |p| == |folder| + 1 && p[..|folder|] == folder && p[|folder|] == n;
        assert p == q;
      }
    }
    names
  }

  datatype ExportError =
    | ReadFailed(message: string)  // pd.read_json raised
    | EmptyFrame                    // df.sample() raised: no row to sample
    | FolderIsFile                  // mkdir raised FileExistsError
    | ParentMissing                 // mkdir raised FileNotFoundError
    | NotADirectory                 // mkdir raised NotADirectoryError

  /** Some folder above `folder` is a regular file, so resolving the path
      stops there. */
  predicate AncestorIsFile(fs: FileSystem, folder: Path) {
    exists j | 1 <= j < |folder| :: folder[..j] in fs.files
  }

  /** `output_folder_path.mkdir()` when the folder is not a directory yet:
      one level only (no `parents=True`). It fails when a file is in the
      way, when a folder above is a file (the path cannot be resolved
      through it) and when the parent is missing. */
  function EnsureFolder(fs: FileSystem, folder: Path): (r: Result<FileSystem, ExportError>)
    requires Valid(fs)
    ensures r.Ok? ==> Valid(r.value) && folder in r.value.dirs && r.value.files == fs.files
    ensures r.Ok? ==> r.value.dirs == fs.dirs + {folder}
    ensures folder in fs.dirs ==> r == Ok(fs)
    ensures r.Err? <==> folder !in fs.dirs && (folder in fs.files || Parent(folder) !in fs.dirs)
    ensures r == Err(FolderIsFile) <==> folder in fs.files
    ensures r == Err(NotADirectory) <==> AncestorIsFile(fs, folder)
    ensures r == Err(ParentMissing) ==> !Exists(fs, Parent(folder)) && !AncestorIsFile(fs, folder)
  {
    if folder in fs.dirs then
      NoFileAbove(fs, folder);
      Ok(fs)
    else if folder in fs.files then
      NoFileAbove(fs, folder);
      Err(FolderIsFile)
    else if Parent(folder) !in fs.dirs then
      if AncestorIsFile(fs, folder) then Err(NotADirectory) else Err(ParentMissing)
    else
      NoFileAbove(fs, folder);
      Ok(fs.(dirs := fs.dirs + {folder}))
  }

  /** Every folder above a directory is a directory. */
  lemma {:induction false} PrefixesAreDirs(fs: FileSystem, d: Path)
    requires Valid(fs) && d in fs.dirs
    ensures forall j :: 0 <= j <= |d| ==> d[..j] in fs.dirs
    decreases |d|
  {
    if d != [] {
      PrefixesAreDirs(fs, Parent(d));
      forall j | 0 <= j < |d|
        ensures d[..j] in fs.dirs
      {
        assert d[..j] == Parent(d)[..j];
      }
      assert d[..|d|] == d;
    }
  }

  /** Below an existing directory no folder above is a file. */
  lemma NoFileAbove(fs: FileSystem, folder: Path)
    requires Valid(fs) && (folder == [] || Parent(folder) in fs.dirs)
    ensures !AncestorIsFile(fs, folder)
  {
    if folder != [] {
      PrefixesAreDirs(fs, Parent(folder));
      forall j | 1 <= j < |folder|
        ensures folder[..j] !in fs.files
      {
        assert folder[..j] == Parent(folder)[..j];
      }
    }
  }

  /** A folder that is missing but whose parent exists is created. */
  lemma EnsureFolderCreates(fs: FileSystem, folder: Path)
    requires Valid(fs) && !Exists(fs, folder) && folder != [] && Parent(folder) in fs.dirs
    ensures EnsureFolder(fs, folder) == Ok(fs.(dirs := fs.dirs + {folder}))
  {
  }

  /** Creation is not recursive: a folder two levels below any existing
      directory cannot be created. The error names a missing folder, unless
      a folder above is a file. */
  lemma EnsureFolderNotRecursive(fs: FileSystem, folder: Path)
    requires Valid(fs) && |folder| >= 2 && !Exists(fs, Parent(folder))
    ensures EnsureFolder(fs, folder) == (if AncestorIsFile(fs, folder) then Err(NotADirectory) else Err(ParentMissing))
  {
    assert folder != [];
  }

  /** A file named where a folder above should be makes the call fail with
      `NotADirectoryError`, however deep the folder is. */
  lemma EnsureFolderUnderFile(fs: FileSystem, folder: Path, j: nat)
    requires Valid(fs) && 1 <= j < |folder| && folder[..j] in fs.files
    ensures EnsureFolder(fs, folder) == Err(NotADirectory)
  {
    assert AncestorIsFile(fs, folder);
  }

  // ---------------------------------------------------------------------
  // The probe for an unused file name

  /** `output_file_name + str(n) + ".csv"`. */
  function CsvName(base: string, n: nat): string {
    base + NatToString(n) + ".csv"
  }

  /** Distinct indices give distinct names. */
  lemma CsvNameInjective(base: string, m: nat, n: nat)
    ensures CsvName(base, m) == CsvName(base, n) ==> m == n
  {
    var a, b := CsvName(base, m), CsvName(base, n);
    if a == b {
      assert |NatToString(m)| == |NatToString(n)|;
      assert NatToString(m) == a[|base|..|a| - 4];
      assert NatToString(n) == b[|base|..|b| - 4];
      NatToStringInjective(m, n);
    }
  }

  /** The names of indices below `k`. */
  function NamesBelow(base: string, k: nat): set<string> {
    set i: nat | i < k :: CsvName(base, i)
  }

  lemma {:induction false} NamesBelowCount(base: string, k: nat)
    ensures |NamesBelow(base, k)| == k
  {
    if k > 0 {
      NamesBelowCount(base, k - 1);
      NamesBelowStep(base, k - 1);
    }
  }

  lemma NamesBelowStep(base: string, k: nat)
    ensures NamesBelow(base, k + 1) == NamesBelow(base, k) + {CsvName(base, k)}
    ensures CsvName(base, k) !in NamesBelow(base, k)
  {
    forall i: nat | i < k ensures CsvName(base, i) != CsvName(base, k) {
      CsvNameInjective(base, i, k);
    }
  }

  lemma {:induction false} SubsetCount<T>(a: set<T>, b: set<T>)
    requires a <= b
    ensures |a| <= |b|
  {
    if a != {} {
      var x :| x in a;
      SubsetCount(a - {x}, b - {x});
    }
  }

  /** The probe loop: the smallest index whose name is not taken. It stops
      within `|existing|` steps, since each taken name is a distinct member
      of `existing`. */
  method ProbeIndex(existing: set<string>, base: string) returns (n: nat)
    ensures CsvName(base, n) !in existing
    ensures forall i: nat :: i < n ==> CsvName(base, i) in existing
    ensures n <= |existing|
  {
    n := 0;
    while CsvName(base, n) in existing
      invariant NamesBelow(base, n) <= existing
      invariant n <= |existing|
      decreases |existing| - n
    {
      NamesBelowStep(base, n);
      NamesBelowCount(base, n + 1);
      SubsetCount(NamesBelow(base, n + 1), existing);
      n := n + 1;
    }
    forall i: nat | i < n ensures CsvName(base, i) in existing {
      assert CsvName(base, i) in NamesBelow(base, n);
    }
  }

  /** Two taken-name sets that agree on the candidate names give the same
      index: the probe looks at nothing else. */
  lemma ProbeIsDetermined(base: string, n: nat, m: nat, existing: set<string>)
    requires CsvName(base, n) !in existing && forall i: nat :: i < n ==> CsvName(base, i) in existing
    requires CsvName(base, m) !in existing && forall i: nat :: i < m ==> CsvName(base, i) in existing
    ensures n == m
  {
  }

  // ---------------------------------------------------------------------
  // export_as_csv

  /** What pandas makes of the JSON text: how many rows, and the CSV text
      `to_csv(index=False)` would write. */
  datatype Frame = Frame(rowCount: nat, csv: string)

  /** `export_as_csv`: read the table (`read` stands for pandas, failing as
      `read_json` does), sample a row for display (which fails on an empty
      table), make sure the folder exists, probe for the first unused name
      and write the CSV text there. The new state and the index used are
      returned with the outcome. */
  method ExportAsCsv(fs: FileSystem, jsonData: string, folder: Path, base: string,
                     read: string -> Result<Frame, string>)
    returns (r: Result<(FileSystem, nat), ExportError>)
    requires Valid(fs)
    ensures read(jsonData).Err? ==> r == Err(ReadFailed(read(jsonData).error))
    ensures read(jsonData).Ok? && read(jsonData).value.rowCount == 0 ==> r == Err(EmptyFrame)
    ensures read(jsonData).Ok? && read(jsonData).value.rowCount > 0 && EnsureFolder(fs, folder).Err? ==>
              r == Err(EnsureFolder(fs, folder).error)
    ensures r.Ok? <==> read(jsonData).Ok? && read(jsonData).value.rowCount > 0 && EnsureFolder(fs, folder).Ok?
    ensures r.Ok? ==> var (fs', n) := r.value;
      var p := folder + [CsvName(base, n)];
      && Valid(fs')
      && !Exists(EnsureFolder(fs, folder).value, p)
      && (forall i: nat :: i < n ==> Taken(fs', folder, base, i))
      && fs'.dirs == EnsureFolder(fs, folder).value.dirs
      && fs'.files == fs.files[p := read(jsonData).value.csv]
  {
    var frame := read(jsonData);
    if frame.Err? {
      return Err(ReadFailed(frame.error));
    }
    if frame.value.rowCount == 0 {
      return Err(EmptyFrame);
    }
    var made := EnsureFolder(fs, folder);
    if made.Err? {
      return Err(made.error);
    }
    var fs1 := made.value;
    var n := ProbeIndex(Entries(fs1, folder), base);
    var p := folder + [CsvName(base, n)];
    var fs' := fs1.(files := fs1.files[p := frame.value.csv]);
    assert Parent(p) == folder;
    r := Ok((fs', n));
  }

  /** Writing never overwrites: the files are the old ones, unchanged, plus
      exactly one new name. */
  lemma NoOverwrite(fs: FileSystem, fs': FileSystem, folder: Path, base: string, n: nat, csv: string)
    requires Valid(fs) && EnsureFolder(fs, folder).Ok?
    requires !Exists(EnsureFolder(fs, folder).value, folder + [CsvName(base, n)])
    requires fs'.files == fs.files[folder + [CsvName(base, n)] := csv]
    ensures fs'.files.Keys == fs.files.Keys + {folder + [CsvName(base, n)]}
    ensures folder + [CsvName(base, n)] !in fs.files
    ensures forall p :: p in fs.files ==> p in fs'.files && fs'.files[p] == fs.files[p]
  {
  }

  /** `<base><i>.csv` exists in `folder`. */
  predicate Taken(fs: FileSystem, folder: Path, base: string, i: nat) {
    Exists(fs, folder + [CsvName(base, i)])
  }

  /** Creating the folder adds no entry inside it. */
  lemma EnsureFolderKeepsTaken(fs: FileSystem, folder: Path, base: string)
    requires Valid(fs) && EnsureFolder(fs, folder).Ok?
    ensures forall i: nat :: Taken(EnsureFolder(fs, folder).value, folder, base, i) <==> Taken(fs, folder, base, i)
  {
    forall i: nat ensures folder + [CsvName(base, i)] != folder {
      assert |folder + [CsvName(base, i)]| != |folder|;
    }
  }

  /** Writing `<base><n>.csv` takes exactly that name and no other. */
  lemma WriteTakesOneName(fs: FileSystem, fs': FileSystem, folder: Path, base: string, n: nat, csv: string)
    requires fs'.dirs == fs.dirs && fs'.files == fs.files[folder + [CsvName(base, n)] := csv]
    ensures forall i: nat :: Taken(fs', folder, base, i) <==> Taken(fs, folder, base, i) || i == n
  {
    forall i: nat | i != n ensures folder + [CsvName(base, i)] != folder + [CsvName(base, n)] {
      CsvNameInjective(base, i, n);
      assert (folder + [CsvName(base, i)])[|folder|] == CsvName(base, i);
    }
  }

  /** One export into a folder whose taken indices are exactly those below
      `k` (among the ones that matter) uses index `k`, and takes it. */
  lemma NextExportIndex(fs: FileSystem, fs': FileSystem, folder: Path, base: string, n: nat, k: nat, csv: string)
    requires Valid(fs) && EnsureFolder(fs, folder).Ok?
    requires (forall i: nat :: i < k ==> Taken(fs, folder, base, i)) && !Taken(fs, folder, base, k)
    requires !Taken(EnsureFolder(fs, folder).value, folder, base, n)
    requires forall i: nat :: i < n ==> Taken(fs', folder, base, i)
    requires fs'.dirs == EnsureFolder(fs, folder).value.dirs
    requires fs'.files == fs.files[folder + [CsvName(base, n)] := csv]
    ensures n == k
    ensures forall i: nat :: Taken(fs', folder, base, i) <==> Taken(fs, folder, base, i) || i == n
  {
    var mid := EnsureFolder(fs, folder).value;
    EnsureFolderKeepsTaken(fs, folder, base);
    WriteTakesOneName(mid, fs', folder, base, n, csv);
    assert !Taken(fs, folder, base, n);
    assert n > k ==> Taken(fs', folder, base, k);
  }

  /** Repeated exports of non-empty tables into a folder that holds no
      `<base><i>.csv` for the indices used pick 0, 1, 2, … in turn. */
  method ExportSeveral(fs: FileSystem, jsons: seq<string>, folder: Path, base: string,
                       read: string -> Result<Frame, string>)
    returns (r: Result<(FileSystem, seq<nat>), ExportError>)
    requires Valid(fs)
    requires forall k :: 0 <= k < |jsons| ==> read(jsons[k]).Ok? && read(jsons[k]).value.rowCount > 0
    requires forall i: nat :: i < |jsons| ==> !Taken(fs, folder, base, i)
    ensures |jsons| > 0 ==> (r.Ok? <==> EnsureFolder(fs, folder).Ok?)
    ensures r.Ok? ==> var (_, used) := r.value;
      |used| == |jsons| && forall k :: 0 <= k < |used| ==> used[k] == k
  {
    var cur := fs;
    var used: seq<nat> := [];
    var k: nat := 0;
    while k < |jsons|
      invariant k <= |jsons| && |used| == k
      invariant Valid(cur)
      invariant forall j :: 0 <= j < k ==> used[j] == j
      invariant k > 0 ==> folder in cur.dirs && EnsureFolder(fs, folder).Ok?
      invariant k == 0 ==> cur == fs
      invariant forall i: nat :: i < k ==> Taken(cur, folder, base, i)
      invariant forall i: nat :: k <= i < |jsons| ==> !Taken(cur, folder, base, i)
    {
      var step := ExportAsCsv(cur, jsons[k], folder, base, read);
      if step.Err? {
        assert k == 0;
        return Err(step.error);
      }
      var (next, n) := step.value;
      NextExportIndex(cur, next, folder, base, n, k, read(jsons[k]).value.csv);
      cur := next;
      used := used + [n];
      k := k + 1;
    }
    r := Ok((cur, used));
  }
}

=== FILE: ocr.dfy ===
/** The bookkeeping around Tesseract in `ocr.py`: turning its column-wise
    word table into records, choosing which files of a folder are images,
    and naming the files each image's results are written to. */
module Ocr {
  import opened Results
  import opened Text

  // ---------------------------------------------------------------------
  // extract_text_with_bboxes: parallel arrays to records

  /** `pytesseract.image_to_data(..., output_type=Output.DICT)`: one list per
      column, meant to be indexed together. */
  datatype WordTable = WordTable(text: seq<string>, left: seq<int>, top: seq<int>,
                                 width: seq<int>, height: seq<int>, conf: seq<int>)

  /** One emitted dictionary. */
  datatype WordBox = WordBox(text: string, left: int, top: int, width: int, height: int, confidence: int)

  datatype OcrError = IndexError(message: string)

  const IndexOutOfRange := "list index out of range"

  /** The indices below `n` whose element satisfies `p`, in order. */
  function Positions<T>(p: T -> bool, s: seq<T>, n: nat): seq<nat>
    requires n <= |s|
  {
    if n == 0 then []
    else Positions(p, s, n - 1) + (if p(s[n - 1]) then [n - 1] else [])
  }

  /** An index is listed exactly when its element satisfies `p`, and the
      listed indices increase. */
  lemma {:induction false} PositionsSpec<T>(p: T -> bool, s: seq<T>, n: nat)
    requires n <= |s|
    ensures forall k: nat :: k in Positions(p, s, n) <==> k < n && p(s[k])
    ensures forall a, b :: 0 <= a < b < |Positions(p, s, n)| ==> Positions(p, s, n)[a] < Positions(p, s, n)[b]
    ensures |Positions(p, s, n)| <= n
  {
    if n > 0 {
      PositionsSpec(p, s, n - 1);
      var prev := Positions(p, s, n - 1);
      var last: seq<nat> := if p(s[n - 1]) then [n - 1] else [];
      assert Positions(p, s, n) == prev + last;
      forall k: nat ensures k in prev + last <==> k < n && p(s[k]) {
        assert k in prev + last <==> k in prev || k in last;
      }
      forall a, b | 0 <= a < b < |prev + last| ensures (prev + last)[a] < (prev + last)[b] {
        if b == |prev| {
          assert prev[a] in prev;
        }
      }
    }
  }

  /** A token whose stripped text is not empty: `if text:` after `.strip()`. */
  predicate IsWord(token: string) {
    Strip(token) != []
  }

  /** The indices below `n` the loop keeps. */
  function Kept(text: seq<string>, n: nat): seq<nat>
    requires n <= |text|
  {
    Positions(IsWord, text, n)
  }

  /** An index is kept exactly when its text is not blank, and the kept
      indices increase. */
  lemma KeptSpec(text: seq<string>, n: nat)
    requires n <= |text|
    ensures forall k: nat :: k in Kept(text, n) <==> k < n && Strip(text[k]) != []
    ensures forall a, b :: 0 <= a < b < |Kept(text, n)| ==> Kept(text, n)[a] < Kept(text, n)[b]
    ensures |Kept(text, n)| <= n
  {
    PositionsSpec(IsWord, text, n);
  }

  /** Every other column has an entry at index `i`. */
  predicate Covers(t: WordTable, i: nat) {
    i < |t.left| && i < |t.top| && i < |t.width| && i < |t.height| && i < |t.conf|
  }

  /** The record for index `i`: every field read at that same index. */
  function BoxAt(t: WordTable, i: nat): WordBox
    requires i < |t.text| && Covers(t, i)
  {
    WordBox(Strip(t.text[i]), t.left[i], t.top[i], t.width[i], t.height[i], t.conf[i])
  }

  /** The records of the kept indices, in order. */
  predicate BoxesOf(t: WordTable, ks: seq<nat>, boxes: seq<WordBox>) {
    && |boxes| == |ks|
    && forall j :: 0 <= j < |ks| ==> ks[j] < |t.text| && Covers(t, ks[j]) && boxes[j] == BoxAt(t, ks[j])
  }

  lemma BoxesOfStep(t: WordTable, ks: seq<nat>, boxes: seq<WordBox>, i: nat)
    requires BoxesOf(t, ks, boxes) && i < |t.text| && Covers(t, i)
    ensures BoxesOf(t, ks + [i], boxes + [BoxAt(t, i)])
  {
  }

  /** The record-building loop of `extract_text_with_bboxes` over a given
      table: a blank token is skipped; a kept one reads the other columns at
      its index, raising `IndexError` when one of them is too short. */
  method ExtractWordBoxes(t: WordTable) returns (r: Result<seq<WordBox>, OcrError>)
    ensures r.Ok? <==> forall k :: k in Kept(t.text, |t.text|) ==> Covers(t, k)
    ensures r.Ok? ==> BoxesOf(t, Kept(t.text, |t.text|), r.value)
    ensures r.Err? ==> r.error == IndexError(IndexOutOfRange)
  {
    var boxes: seq<WordBox> := [];
    var i := 0;
    while i < |t.text|
      invariant i <= |t.text|
      invariant forall k :: k in Kept(t.text, i) ==> Covers(t, k)
      invariant BoxesOf(t, Kept(t.text, i), boxes)
    {
      if IsWord(t.text[i]) {
        if !Covers(t, i) {
          PositionsSpec(IsWord, t.text, |t.text|);
          assert i in Kept(t.text, |t.text|);
          return Err(IndexError(IndexOutOfRange));
        }
        BoxesOfStep(t, Kept(t.text, i), boxes, i);
        boxes := boxes + [BoxAt(t, i)];
      }
      i := i + 1;
    }
    r := Ok(boxes);
  }

  /** The records come from increasing indices, there are at most as many as
      tokens, and each text is non-empty with no surrounding whitespace. */
  lemma WordBoxesShape(t: WordTable, boxes: seq<WordBox>)
    requires BoxesOf(t, Kept(t.text, |t.text|), boxes)
    ensures |boxes| <= |t.text|
    ensures forall j :: 0 <= j < |boxes| ==> boxes[j].text != [] && IsStripped(boxes[j].text)
  {
    var ks := Kept(t.text, |t.text|);
    PositionsSpec(IsWord, t.text, |t.text|);
    forall j | 0 <= j < |boxes| ensures boxes[j].text != [] {
      assert ks[j] in ks;
    }
  }

  /** A table whose columns have equal length never raises. */
  lemma EqualColumnsNeverFail(t: WordTable)
    requires |t.left| == |t.top| == |t.width| == |t.height| == |t.conf| == |t.text|
    ensures forall k :: k in Kept(t.text, |t.text|) ==> Covers(t, k)
  {
    PositionsSpec(IsWord, t.text, |t.text|);
  }

  // ---------------------------------------------------------------------
  // process_folder: which directory entries are images

  /** `str.lower` on ASCII letters; other characters are kept. */
  function LowerChar(c: char): char {
    if 'A' <= c <= 'Z' then (c as int + 32) as char else c
  }

  function Lower(s: string): (r: string)
    ensures |r| == |s| && forall i :: 0 <= i < |s| ==> r[i] == LowerChar(s[i])
  {
    Map(LowerChar, s)
  }

  predicate EndsWith(s: string, suffix: string) {
    |suffix| <= |s| && s[|s| - |suffix|..] == suffix
  }

  /** `fname.lower().endswith(('.png', '.jpg', '.jpeg'))`. */
  predicate IsImageFile(name: string) {
    var l := Lower(name);
    EndsWith(l, ".png") || EndsWith(l, ".jpg") || EndsWith(l, ".jpeg")
  }

  /** The two strings differ at most in the case of ASCII letters. */
  predicate SameIgnoringCase(a: string, b: string) {
    |a| == |b| && forall i :: 0 <= i < |a| ==> LowerChar(a[i]) == LowerChar(b[i])
  }

  /** `name` ends with `ext` up to letter case. */
  predicate HasExtension(name: string, ext: string) {
    |ext| <= |name| && SameIgnoringCase(name[|name| - |ext|..], ext)
  }

  lemma LowerEndsWith(name: string, ext: string)
    requires Lower(ext) == ext
    ensures EndsWith(Lower(name), ext) <==> HasExtension(name, ext)
  {
    if |ext| <= |name| {
      var tail := name[|name| - |ext|..];
      if EndsWith(Lower(name), ext) {
        forall i | 0 <= i < |ext| ensures LowerChar(tail[i]) == LowerChar(ext[i]) {
          assert Lower(name)[|name| - |ext| + i] == ext[i];
          assert Lower(ext)[i] == ext[i];
        }
      }
      if HasExtension(name, ext) {
        forall i | 0 <= i < |ext| ensures Lower(name)[|name| - |ext| + i] == ext[i] {
          assert Lower(ext)[i] == ext[i];
        }
      }
    }
  }

  /** A file is processed exactly when its name ends with one of the three
      extensions in any mix of letter case. */
  lemma IsImageFileIff(name: string)
    ensures IsImageFile(name) <==> HasExtension(name, ".png") || HasExtension(name, ".jpg") || HasExtension(name, ".jpeg")
  {
    LowerEndsWith(name, ".png");
    LowerEndsWith(name, ".jpg");
    LowerEndsWith(name, ".jpeg");
  }

  /** Letter case never changes the verdict. */
  lemma IsImageFileIgnoresCase(a: string, b: string)
    requires SameIgnoringCase(a, b)
    ensures IsImageFile(a) <==> IsImageFile(b)
  {
    assert Lower(a) == Lower(b);
  }

  /** Every accepted name ends in `g` or `G`: so `scan.png.txt` is not
      processed. */
  lemma ImageNameEndsInG(name: string)
    requires IsImageFile(name)
    ensures name != [] && LowerChar(name[|name| - 1]) == 'g'
  {
    var l := Lower(name);
    assert EndsWith(l, ".png") ==> l[|l| - 1] == ".png"[3];
    assert EndsWith(l, ".jpg") ==> l[|l| - 1] == ".jpg"[3];
    assert EndsWith(l, ".jpeg") ==> l[|l| - 1] == ".jpeg"[4];
  }

  /** The directory entries `process_folder` hands on, in listing order. */
  function ImagesToProcess(entries: seq<string>): (r: seq<string>)
    ensures forall n :: n in r <==> n in entries && IsImageFile(n)
    ensures IsSubsequence(r, entries)
  {
    FilterSubsequence(IsImageFile, entries);
    Filter(IsImageFile, entries)
  }

  // ---------------------------------------------------------------------
  // process_image: output file names

  /** The last `c` in `s`, if any. */
  function LastIndexOf(s: string, c: char): (r: Option<nat>)
    ensures r.Some? ==> r.value < |s| && s[r.value] == c && forall k :: r.value < k < |s| ==> s[k] != c
    ensures r.None? ==> forall k :: 0 <= k < |s| ==> s[k] != c
  {
    LastBefore(s, c, |s|)
  }

  function LastBefore(s: string, c: char, n: nat): (r: Option<nat>)
    requires n <= |s|
    ensures r.Some? ==> r.value < n && s[r.value] == c && forall k :: r.value < k < n ==> s[k] != c
    ensures r.None? ==> forall k :: 0 <= k < n ==> s[k] != c
  {
    if n == 0 then None
    else if s[n - 1] == c then Some(n - 1)
    else LastBefore(s, c, n - 1)
  }

  /** `os.path.join(a, b)` for POSIX paths. */
  function Join(a: string, b: string): string {
    if b != [] && b[0] == '/' then b
    else if a == [] || a[|a| - 1] == '/' then a + b
    else a + "/" + b
  }

  /** `os.path.basename`: what follows the last `/`. */
  function Basename(p: string): (r: string)
    ensures '/' !in r
    ensures |r| <= |p| && p[|p| - |r|..] == r
    ensures |r| < |p| ==> p[|p| - |r| - 1] == '/'
  {
    match LastIndexOf(p, '/')
    case None => p
    case Some(k) => p[k + 1..]
  }

  predicate AllDots(s: string) {
    forall k :: 0 <= k < |s| ==> s[k] == '.'
  }

  lemma NotInSuffix(s: string, c: char, i: nat)
    requires i <= |s| && forall k :: i <= k < |s| ==> s[k] != c
    ensures c !in s[i..]
  {
    assert forall k :: 0 <= k < |s[i..]| ==> s[i..][k] == s[i + k];
  }

  /** `os.path.splitext(name)[0]` for a name without `/`: the text before the
      last `.`, unless only dots precede it (a leading-dot name such as
      `.bashrc` has no extension). */
  function Stem(name: string): (r: string)
    ensures |r| <= |name| && name[..|r|] == r
    ensures r == name || (name[|r|] == '.' && '.' !in name[|r| + 1..] && !AllDots(r))
    ensures r == name <==> LastIndexOf(name, '.').None? || AllDots(name[..LastIndexOf(name, '.').value])
  {
    match LastIndexOf(name, '.')
    case None => name
    case Some(d) =>
      if AllDots(name[..d]) then name
      else
        NotInSuffix(name, '.', d + 1);
        name[..d]
  }

  /** Adding an extension to a name that is more than dots and has no `/`
      gives back that name as the stem. */
  lemma StemOfExtended(base: string, ext: string)
    requires !AllDots(base) && '.' !in ext
    ensures Stem(base + "." + ext) == base
  {
    var name := base + "." + ext;
    assert name[|base|] == '.';
    assert forall k :: |base| < k < |name| ==> name[k] == ext[k - |base| - 1];
    assert name[..|base|] == base;
  }

  /** A name with no dot after its first character is its own stem. */
  lemma StemOfPlainName(name: string)
    requires forall k :: 0 < k < |name| ==> name[k] != '.'
    ensures Stem(name) == name
  {
  }

  /** For a name taken from a directory listing (no `/`), the basename of
      the joined path is the name itself. */
  lemma BasenameOfJoin(folder: string, name: string)
    requires '/' !in name
    ensures Basename(Join(folder, name)) == name
  {
    var q := if folder == [] || folder[|folder| - 1] == '/' then folder else folder + "/";
    assert name != [] ==> name[0] != '/';
    assert Join(folder, name) == q + name;
    BasenameAfterSlash(q, name);
  }

  lemma BasenameAfterSlash(q: string, name: string)
    requires '/' !in name && (q == [] || q[|q| - 1] == '/')
    ensures Basename(q + name) == name
  {
    var p := q + name;
    assert forall k :: |q| <= k < |p| ==> p[k] == name[k - |q|];
    assert q != [] ==> p[|q| - 1] == '/';
    assert p[|q|..] == name;
  }

  /** Where `process_image` writes an image's text and its word boxes. */
  datatype OutputFiles = OutputFiles(textPath: string, jsonPath: string)

  function OutputPaths(outputDir: string, imagePath: string): OutputFiles {
    var stem := Stem(Basename(imagePath));
    OutputFiles(Join(outputDir, stem + ".txt"), Join(outputDir, stem + ".json"))
  }

  /** The outputs of each image `process_folder` processes, in order: both
      files are named after the entry's stem. */
  function ProcessFolder(folder: string, outputDir: string, entries: seq<string>): (r: seq<OutputFiles>)
    requires forall k :: 0 <= k < |entries| ==> '/' !in entries[k]
    ensures |r| == |ImagesToProcess(entries)|
    ensures forall j :: 0 <= j < |r| ==>
      var stem := Stem(ImagesToProcess(entries)[j]);
      r[j] == OutputFiles(Join(outputDir, stem + ".txt"), Join(outputDir, stem + ".json"))
  {
    var images := ImagesToProcess(entries);
    forall j | 0 <= j < |images| ensures Basename(Join(folder, images[j])) == images[j] {
      assert images[j] in entries;
      BasenameOfJoin(folder, images[j]);
    }
    Map((n: string) => OutputPaths(outputDir, Join(folder, n)), images)
  }

  /** The text and JSON outputs of one image never share a path. */
  lemma OutputsDistinct(outputDir: string, imagePath: string)
    ensures OutputPaths(outputDir, imagePath).textPath != OutputPaths(outputDir, imagePath).jsonPath
  {
    var stem := Stem(Basename(imagePath));
    var a, b := stem + ".txt", stem + ".json";
    assert a[|a| - 1] == 't' && b[|b| - 1] == 'n';
    var o := OutputPaths(outputDir, imagePath);
    assert o.textPath[|o.textPath| - 1] == 't' && o.jsonPath[|o.jsonPath| - 1] == 'n';
  }

  /** Two images that differ only in extension write to the same files, so
      the later one's results replace the earlier one's. */
  lemma SameStemSameOutputs(folder: string, outputDir: string, stem: string, ext1: string, ext2: string)
    requires !AllDots(stem) && '/' !in stem
    requires '.' !in ext1 && '/' !in ext1 && '.' !in ext2 && '/' !in ext2
    ensures OutputPaths(outputDir, Join(folder, stem + "." + ext1)) == OutputPaths(outputDir, Join(folder, stem + "." + ext2))
  {
    SameStem(folder, stem, ext1);
    SameStem(folder, stem, ext2);
  }

  lemma SameStem(folder: string, stem: string, ext: string)
    requires !AllDots(stem) && '/' !in stem && '.' !in ext && '/' !in ext
    ensures Stem(Basename(Join(folder, stem + "." + ext))) == stem
  {
    var name := stem + "." + ext;
    assert '/' !in name by {
      assert forall k :: 0 <= k < |name| ==> name[k] == (if k < |stem| then stem[k] else if k == |stem| then '.' else ext[k - |stem| - 1]);
    }
    BasenameOfJoin(folder, name);
    StemOfExtended(stem, ext);
  }
}

=== FILE: postprocessing.dfy ===
/** The clean-up applied to a language model's answer
    (`postprocessing/llm_postprocessing.py`): markdown stripping, spacing
    normalisation, JSON extraction, and `clean_response`, which chains them. */
module Postprocessing {
  import opened Results
  import opened Text

  // ---------------------------------------------------------------------
  // strip_markdown, step one: each fenced block, opening fence to the nearest
  // closing fence and across line breaks, is deleted

  /** Three backticks start at `i`. */
  predicate FenceAt(s: string, i: nat) {
    i + 3 <= |s| && s[i] == '`' && s[i + 1] == '`' && s[i + 2] == '`'
  }

  /** The first fence at or after `k`, if any: where the lazy `.*?` stops. */
  function NextFence(s: string, k: nat): (j: Option<nat>)
    requires k <= |s|
    ensures j.Some? ==> k <= j.value && FenceAt(s, j.value)
    ensures j.Some? ==> forall m :: k <= m < j.value ==> !FenceAt(s, m)
    ensures j.None? ==> forall m :: k <= m ==> !FenceAt(s, m)
    decreases |s| - k
  {
    if k + 3 > |s| then None
    else if FenceAt(s, k) then Some(k)
    else NextFence(s, k + 1)
  }

  /** Length of the match of the fenced-block pattern at `i`, 0 for none. */
  function BlockAt(s: string, i: nat): (n: nat)
    requires i <= |s|
    ensures i + n <= |s|
  {
    if !FenceAt(s, i) then 0
    else
      match NextFence(s, i + 3)
      case None => 0
      case Some(j) => j + 3 - i
  }

  /** A block match is an opening fence, then the shortest stretch of any
      characters (line breaks included) up to the next fence, which closes
      it; there is none when no fence follows the opening one. */
  lemma BlockAtSpec(s: string, i: nat)
    requires i <= |s|
    ensures var n := BlockAt(s, i);
      && (n > 0 ==> n >= 6 && FenceAt(s, i) && FenceAt(s, i + n - 3))
      && (n > 0 ==> forall m :: i + 3 <= m < i + n - 3 ==> !FenceAt(s, m))
      && (n == 0 ==> !FenceAt(s, i) || forall m :: i + 3 <= m ==> !FenceAt(s, m))
  {
  }

  /** `BlockAt` at every position of `s`. */
  function BlockLengths(s: string): (m: nat -> nat)
    ensures MatchLengthsFit(s, m)
    ensures forall k: nat :: k <= |s| ==> m(k) == BlockAt(s, k)
  {
    (k: nat) => if k <= |s| then BlockAt(s, k) else 0
  }

  /** The first substitution of `strip_markdown`: every fenced block,
      fences and contents, deleted. */
  function RemoveBlocks(s: string): (r: string)
    ensures |r| <= |s|
    ensures IsSubsequence(r, s)
    ensures forall c :: c in r ==> c in s
  {
    var m := BlockLengths(s);
    DeleteMatchesShorter(s, m, 0);
    DeleteMatchesSubsequence(s, m, 0);
    DeleteMatchesKeepsChars(s, m, 0);
    assert s[0..] == s;
    DeleteMatches(s, m, 0)
  }

  /** Text without a backtick has no block, so it is kept as it is. */
  lemma RemoveBlocksNoBacktick(s: string)
    requires forall k :: 0 <= k < |s| ==> s[k] != '`'
    ensures RemoveBlocks(s) == s
  {
    var m := BlockLengths(s);
    forall k: nat | 0 <= k < |s| ensures m(k) == 0 {
      assert !FenceAt(s, k);
    }
    DeleteMatchesUnchanged(s, m);
  }

  // ---------------------------------------------------------------------
  // strip_markdown, step two: every heading, emphasis and backtick mark is deleted

  predicate IsMark(c: char) {
    c == '#' || c == '*' || c == '_' || c == '`'
  }

  predicate NotMark(c: char) {
    !IsMark(c)
  }

  /** Deleting every run of mark characters is deleting every mark character. */
  function DropMarks(s: string): (r: string)
    ensures forall k :: 0 <= k < |r| ==> !IsMark(r[k])
    ensures Filter(NotMark, r) == Filter(NotMark, s)
  {
    FilterIdempotent(NotMark, s);
    Filter(NotMark, s)
  }

  /** Length of the run of mark characters starting at `i`. */
  function MarkRun(s: string, i: nat): (n: nat)
    requires i <= |s|
    ensures i + n <= |s|
    decreases |s| - i
  {
    if i < |s| && IsMark(s[i]) then 1 + MarkRun(s, i + 1) else 0
  }

  /** The run is all marks, and is followed by a non-mark or the end. */
  lemma {:induction false} MarkRunMaximal(s: string, i: nat)
    requires i <= |s|
    ensures forall k :: i <= k < i + MarkRun(s, i) ==> IsMark(s[k])
    ensures i + MarkRun(s, i) < |s| ==> !IsMark(s[i + MarkRun(s, i)])
    decreases |s| - i
  {
    if i < |s| && IsMark(s[i]) {
      MarkRunMaximal(s, i + 1);
    }
  }

  /** The greedy match of the mark-run pattern at every position. */
  function MarkRuns(s: string): (m: nat -> nat)
    ensures MatchLengthsFit(s, m)
    ensures forall k: nat :: k <= |s| ==> m(k) == MarkRun(s, k)
  {
    (k: nat) => if k <= |s| then MarkRun(s, k) else 0
  }

  /** Scanning `s[i..]` and deleting each maximal run of marks leaves its
      non-mark characters. */
  lemma {:induction false} DeleteMarkRuns(s: string, i: nat)
    requires i <= |s|
    ensures DeleteMatches(s, MarkRuns(s), i) == Filter(NotMark, s[i..])
    decreases |s| - i
  {
    if i < |s| {
      var m := MarkRuns(s);
      var n := MarkRun(s, i);
      assert m(i) == n;
      if n > 0 {
        DeleteMarkRuns(s, i + n);
        MarkRunMaximal(s, i);
        DeleteMarkRunStep(s, m, i, n);
      } else {
        DeleteMarkRuns(s, i + 1);
        KeepCharStep(s, m, i);
      }
    }
  }

  lemma DeleteMarkRunStep(s: string, m: nat -> nat, i: nat, n: nat)
    requires i < |s| && MatchLengthsFit(s, m) && m(i) == n > 0
    requires forall k :: i <= k < i + n ==> IsMark(s[k])
    requires DeleteMatches(s, m, i + n) == Filter(NotMark, s[i + n..])
    ensures DeleteMatches(s, m, i) == Filter(NotMark, s[i..])
  {
    DeleteMatchesSkip(s, m, i);
    SkipMarks(s, i, n);
  }

  lemma KeepCharStep(s: string, m: nat -> nat, i: nat)
    requires i < |s| && MatchLengthsFit(s, m) && m(i) == 0 && !IsMark(s[i])
    requires DeleteMatches(s, m, i + 1) == Filter(NotMark, s[i + 1..])
    ensures DeleteMatches(s, m, i) == Filter(NotMark, s[i..])
  {
    DeleteMatchesKeep(s, m, i);
    KeepNonMark(s, i);
  }

  lemma SkipMarks(s: string, i: nat, n: nat)
    requires i + n <= |s|
    requires forall k :: i <= k < i + n ==> IsMark(s[k])
    ensures Filter(NotMark, s[i..]) == Filter(NotMark, s[i + n..])
  {
    assert s[i..] == s[i..i + n] + s[i + n..];
    FilterAppend(NotMark, s[i..i + n], s[i + n..]);
    FilterNone(NotMark, s[i..i + n]);
  }

  lemma KeepNonMark(s: string, i: nat)
    requires i < |s| && !IsMark(s[i])
    ensures Filter(NotMark, s[i..]) == [s[i]] + Filter(NotMark, s[i + 1..])
  {
    assert s[i..][1..] == s[i + 1..];
  }

  /** The substitution that deletes every run of marks, scanning left to
      right, gives what `DropMarks` gives. */
  lemma DropMarksDeletesRuns(s: string)
    ensures DeleteMatches(s, MarkRuns(s), 0) == DropMarks(s)
  {
    DeleteMarkRuns(s, 0);
    assert s[0..] == s;
  }

  /** `strip_markdown`. */
  function StripMarkdown(s: string): (r: string)
    ensures forall k :: 0 <= k < |r| ==> !IsMark(r[k])
    ensures |r| <= |s|
  {
    DropMarks(RemoveBlocks(s))
  }

  /** Text with no mark character is a fixpoint of `strip_markdown`. */
  lemma StripMarkdownFixpoint(s: string)
    requires forall k :: 0 <= k < |s| ==> !IsMark(s[k])
    ensures StripMarkdown(s) == s
  {
    RemoveBlocksNoBacktick(s);
    FilterAll(NotMark, s);
  }

  /** Stripping markdown twice is stripping it once. */
  lemma StripMarkdownIdempotent(s: string)
    ensures StripMarkdown(StripMarkdown(s)) == StripMarkdown(s)
  {
    StripMarkdownFixpoint(StripMarkdown(s));
  }

  /** The block ends at the first closing fence, not the last one. */
  lemma ShortestBlockAt()
    ensures BlockAt("```a```b```", 0) == 7
  {
    var s := "```a```b```";
    assert FenceAt(s, 0) && !FenceAt(s, 3) && FenceAt(s, 4);
    assert NextFence(s, 4) == Some(4);
    assert NextFence(s, 3) == Some(4);
  }

  lemma NoBlockInTail()
    ensures forall k: nat :: 7 <= k <= 11 ==> BlockAt("```a```b```", k) == 0
  {
    var s := "```a```b```";
    assert NextFence(s, 11) == None;
  }

  /** After the shortest block the scan resumes: the remaining fence has no
      partner and is kept. */
  lemma ShortestBlockRemovedFirst()
    ensures RemoveBlocks("```a```b```") == "b```"
  {
    var s := "```a```b```";
    var m := BlockLengths(s);
    ShortestBlockAt();
    NoBlockInTail();
    DeleteMatchesNone(s, m, 7);
    assert s[7..] == "b```";
  }

  /** The unpartnered fence then goes with the other marks. */
  lemma ShortestBlockRemoved()
    ensures StripMarkdown("```a```b```") == "b"
  {
    ShortestBlockRemovedFirst();
    UnpartneredFenceDropped();
  }

  lemma UnpartneredFenceDropped()
    ensures DropMarks("b```") == "b"
  {
    KeptThenMarks('b', "```");
  }

  /** A kept character followed only by marks leaves that character alone. */
  lemma KeptThenMarks(c: char, t: string)
    requires NotMark(c)
    requires forall k :: 0 <= k < |t| ==> IsMark(t[k])
    ensures DropMarks([c] + t) == [c]
  {
    FilterNone(NotMark, t);
    FilterAppend(NotMark, [c], t);
  }

  // ---------------------------------------------------------------------
  // normalize_spacing: whitespace runs become one space, then the ends are trimmed

  /** `normalize_spacing`. */
  function NormalizeSpacing(s: string): (r: string)
    ensures IsStripped(r)
  {
    Strip(CollapseWhitespace(s))
  }

  /** The result has no whitespace at either end, `' '` as its only
      whitespace, never two whitespace characters together, the same
      non-whitespace characters in the same order, and no other new character. */
  lemma NormalizeSpacingShape(s: string)
    ensures var r := NormalizeSpacing(s);
      && IsStripped(r)
      && IsCollapsed(r)
      && Filter(NotSpace, r) == Filter(NotSpace, s)
      && (forall c :: c in r ==> c in s || c == ' ')
  {
    NormalizeSpacingCollapsed(s);
    NormalizeSpacingKeepsNonSpace(s);
    NormalizeSpacingChars(s);
  }

  lemma NormalizeSpacingCollapsed(s: string)
    ensures IsCollapsed(NormalizeSpacing(s))
  {
    var t := CollapseWhitespace(s);
    var r := Strip(t);
    var i := SpaceRunEnd(t, 0);
    CollapseShape(s);
    CollapsedInfix(t, i, i + |r|);
  }

  lemma NormalizeSpacingKeepsNonSpace(s: string)
    ensures Filter(NotSpace, NormalizeSpacing(s)) == Filter(NotSpace, s)
  {
    CollapseKeepsNonSpace(s);
    StripKeepsNonSpace(CollapseWhitespace(s));
  }

  lemma NormalizeSpacingChars(s: string)
    ensures forall c :: c in NormalizeSpacing(s) ==> c in s || c == ' '
  {
    var t := CollapseWhitespace(s);
    var r := Strip(t);
    var i := SpaceRunEnd(t, 0);
    CollapseChars(s);
    forall c | c in r ensures c in t {
      var k :| 0 <= k < |r| && r[k] == c;
      assert t[i + k] == c;
    }
  }

  /** Normalising normalised text changes nothing. */
  lemma NormalizeSpacingIdempotent(s: string)
    ensures NormalizeSpacing(NormalizeSpacing(s)) == NormalizeSpacing(s)
  {
    var r := NormalizeSpacing(s);
    NormalizeSpacingShape(s);
    CollapseFixpoint(r);
    StripFixpoint(r);
  }

  // ---------------------------------------------------------------------
  // extract_json

  /** The first `{` at or after `i`, or `|s|`. */
  function FirstOpen(s: string, i: nat): (k: nat)
    requires i <= |s|
    ensures i <= k <= |s|
    ensures k < |s| ==> s[k] == '{'
    ensures forall m :: i <= m < k ==> s[m] != '{'
    decreases |s| - i
  {
    if i == |s| || s[i] == '{' then i else FirstOpen(s, i + 1)
  }

  /** One past the last `}` before `j`, or 0. */
  function LastCloseEnd(s: string, j: nat): (k: nat)
    requires j <= |s|
    ensures k <= j
    ensures k > 0 ==> s[k - 1] == '}'
    ensures forall m :: k <= m < j ==> s[m] != '}'
  {
    if j == 0 || s[j - 1] == '}' then j else LastCloseEnd(s, j - 1)
  }

  /** Some `{` comes before some `}`. */
  predicate HasBracePair(s: string) {
    exists a, b :: 0 <= a < b < |s| && s[a] == '{' && s[b] == '}'
  }

  /** The text the brace search of `extract_json` matches (a `{`, anything
      including line breaks, a `}`), as
      bounds: the search starts at the first `{` (a later one cannot succeed
      where the first failed), and the greedy `.*` runs to the last `}`. */
  function JsonSpan(s: string): (r: Option<(nat, nat)>)
    ensures r.Some? <==> HasBracePair(s)
    ensures r.Some? ==> var (i, e) := r.value;
      && i < e <= |s| && s[i] == '{' && s[e - 1] == '}'
      && (forall m :: 0 <= m < i ==> s[m] != '{')
      && (forall m :: e <= m < |s| ==> s[m] != '}')
  {
    var i := FirstOpen(s, 0);
    var e := LastCloseEnd(s, |s|);
    if i < |s| && i + 1 < e then Some((i, e))
    else
      assert !HasBracePair(s) by {
        forall a, b | 0 <= a < b < |s| && s[a] == '{' ensures s[b] != '}' {
          assert i <= a;
        }
      }
      None
  }

  /** What `extract_json` returns: the parsed value, the empty dict `{}`, or
      the dict `{"error": message}`. */
  datatype Extracted<J> = Parsed(value: J) | EmptyObject | ErrorObject(message: string)

  const ErrorPrefix := "Failed to extract JSON: "

  /** `extract_json`; `json.loads` is the parameter `parse`, which yields a
      value or the text of the exception it raised. */
  function ExtractJson<J>(text: string, parse: string -> Result<J, string>): (r: Extracted<J>)
    ensures r.EmptyObject? <==> !HasBracePair(text)
    ensures !r.EmptyObject? ==> JsonSpan(text).Some? && var (i, e) := JsonSpan(text).value;
      && (r.Parsed? <==> parse(text[i..e]).Ok?)
      && (r.Parsed? ==> parse(text[i..e]).value == r.value)
      && (r.ErrorObject? ==> r.message == ErrorPrefix + parse(text[i..e]).error)
  {
    match JsonSpan(text)
    case None => EmptyObject
    case Some((i, e)) =>
      match parse(text[i..e])
      case Ok(v) => Parsed(v)
      case Err(msg) => ErrorObject(ErrorPrefix + msg)
  }

  // ---------------------------------------------------------------------
  // clean_response

  /** A Python exception, by class and message. */
  datatype PyError = TypeError(message: string)

  const NotCallable := "'bool' object is not callable"

  /** `clean_response` as written: its parameters `strip_markdown`,
      `normalize_spacing` and `extract_json` shadow the module's functions
      of the same names, so the first flag that is set is then called as a
      function, and calling a `bool` raises `TypeError`. */
  function CleanResponseAsWritten(response: string, stripMarkdown: bool, normalizeSpacing: bool, extractJson: bool): (r: Result<string, PyError>)
    ensures r.Ok? <==> !stripMarkdown && !normalizeSpacing && !extractJson
    ensures r.Ok? ==> r.value == response
    ensures r.Err? ==> r.error == TypeError(NotCallable)
  {
    if stripMarkdown then Err(TypeError(NotCallable))
    else if normalizeSpacing then Err(TypeError(NotCallable))
    else if extractJson then Err(TypeError(NotCallable))
    else Ok(response)
  }

  /** The default call `clean_response(response)` has `strip_markdown=True`
      and `normalize_spacing=True`, so it always raises. */
  lemma DefaultCallFails(response: string)
    ensures CleanResponseAsWritten(response, true, true, false) == Err(TypeError(NotCallable))
  {
  }

  /** What the corrected `clean_response` returns: a string, or what
      `extract_json` returns. */
  datatype Cleaned<J> = CleanedText(text: string) | CleanedJson(json: Extracted<J>)

  /** `clean_response` calling the module's helpers, as evidently intended. */
  function CleanResponse<J>(response: string, stripMarkdown: bool, normalizeSpacing: bool, extractJson: bool,
                            parse: string -> Result<J, string>): (r: Cleaned<J>)
    ensures r.CleanedJson? <==> extractJson
    ensures r.CleanedText? && normalizeSpacing ==> IsStripped(r.text) && IsCollapsed(r.text)
    ensures r.CleanedText? && !stripMarkdown && !normalizeSpacing ==> r.text == response
    ensures r.CleanedText? ==>
      Filter(NotSpace, r.text) == Filter(NotSpace, if stripMarkdown then StripMarkdown(response) else response)
    ensures r.CleanedText? && stripMarkdown && !normalizeSpacing ==> r.text == StripMarkdown(response)
    ensures r.CleanedText? && !stripMarkdown && normalizeSpacing ==> r.text == NormalizeSpacing(response)
  {
    var t1 := if stripMarkdown then StripMarkdown(response) else response;
    var t2 := if normalizeSpacing then NormalizeSpacing(t1) else t1;
    NormalizeSpacingShape(t1);
    if extractJson then CleanedJson(ExtractJson(t2, parse)) else CleanedText(t2)
  }

  /** Each flag applies the helper of its name to what the earlier steps
      left: spacing is normalised after markdown is stripped, and JSON is
      extracted from the text the two text steps produce. */
  lemma CleanResponseComposes<J>(response: string, stripMarkdown: bool, normalizeSpacing: bool,
                                 parse: string -> Result<J, string>)
    ensures CleanResponse(response, stripMarkdown, normalizeSpacing, true, parse)
         == CleanedJson(ExtractJson(CleanResponse(response, stripMarkdown, normalizeSpacing, false, parse).text, parse))
    ensures CleanResponse(response, stripMarkdown, true, false, parse).text
         == NormalizeSpacing(CleanResponse(response, stripMarkdown, false, false, parse).text)
  {
  }

  /** With markdown stripping on and JSON extraction off, no mark character
      is left, whether or not spacing is normalised afterwards. */
  lemma CleanResponseNoMarks<J>(response: string, normalizeSpacing: bool, parse: string -> Result<J, string>)
    ensures var r := CleanResponse(response, true, normalizeSpacing, false, parse);
      forall k :: 0 <= k < |r.text| ==> !IsMark(r.text[k])
  {
    var t1 := StripMarkdown(response);
    if normalizeSpacing {
      var t2 := NormalizeSpacing(t1);
      NormalizeSpacingShape(t1);
      forall k | 0 <= k < |t2| ensures !IsMark(t2[k]) {
        assert t2[k] in t2;
        if t2[k] != ' ' {
          var j :| 0 <= j < |t1| && t1[j] == t2[k];
        }
      }
    }
  }

  /** Where the code as written returns at all, the corrected function
      returns the same text. */
  lemma CleanResponseAgrees<J>(response: string, stripMarkdown: bool, normalizeSpacing: bool, extractJson: bool,
                               parse: string -> Result<J, string>)
    requires CleanResponseAsWritten(response, stripMarkdown, normalizeSpacing, extractJson).Ok?
    ensures CleanResponse(response, stripMarkdown, normalizeSpacing, extractJson, parse)
         == CleanedText(CleanResponseAsWritten(response, stripMarkdown, normalizeSpacing, extractJson).value)
  {
  }
}

=== FILE: preprocessing.dfy ===
/** The text transforms applied to OCR output before it is sent to the
    language model (`preprocessing/llm_preprocessing.py`): line cleaning,
    whitespace collapsing, header/footer deletion, date rewriting and
    transaction-line filtering, chained by `preprocess_text`. Whitespace
    collapsing is `Text.CollapseWhitespace`; date rewriting is
    `Dates.StandardizeDates`. */
module Preprocessing {
  import opened Decimal
  import opened Text
  import opened Results
  import opened Dates

  // ---------------------------------------------------------------------
  // clean_text

  /** The `if line.strip()` test of the comprehension. */
  predicate IsNonBlank(line: string) {
    Strip(line) != []
  }

  /** The list `clean_text` joins: every non-blank line, stripped, in order. */
  function CleanLines(t: string): seq<string> {
    Map(Strip, Filter(IsNonBlank, SplitLines(t)))
  }

  /** `clean_text`. */
  function CleanText(t: string): string {
    JoinLines(CleanLines(t))
  }

  /** Every line `clean_text` keeps is non-empty, stripped, and free of line breaks. */
  lemma CleanLinesShape(t: string)
    ensures var ls := CleanLines(t);
      forall i :: 0 <= i < |ls| ==> ls[i] != [] && IsStripped(ls[i]) && NoLineBreak(ls[i])
  {
    var src := SplitLines(t);
    var kept := Filter(IsNonBlank, src);
    forall i | 0 <= i < |kept| ensures NoLineBreak(Strip(kept[i])) {
      assert kept[i] in src;
      StripKeepsNoLineBreak(kept[i]);
    }
  }

  /** Reading the cleaned text back gives exactly the stripped non-blank
      input lines, in their original order: no line of the result is empty. */
  lemma CleanTextLines(t: string)
    ensures SplitLines(CleanText(t)) == Map(Strip, Filter(IsNonBlank, SplitLines(t)))
    ensures forall l :: l in SplitLines(CleanText(t)) ==> l != [] && IsStripped(l)
  {
    CleanLinesShape(t);
    SplitJoin(CleanLines(t));
  }

  /** Cleaning cleaned text changes nothing. */
  lemma CleanTextIdempotent(t: string)
    ensures CleanText(CleanText(t)) == CleanText(t)
  {
    var ls := CleanLines(t);
    CleanTextLines(t);
    CleanLinesShape(t);
    assert SplitLines(CleanText(t)) == ls;
    CleanLinesFixpoint(ls);
  }

  /** Lines that are already non-empty and stripped survive cleaning as they are. */
  lemma CleanLinesFixpoint(ls: seq<string>)
    requires forall i :: 0 <= i < |ls| ==> ls[i] != [] && IsStripped(ls[i])
    ensures Map(Strip, Filter(IsNonBlank, ls)) == ls
  {
    StripAllFixpoint(ls);
    FilterAll(IsNonBlank, ls);
    MapFixpoint(Strip, ls);
  }

  lemma StripAllFixpoint(ls: seq<string>)
    requires forall i :: 0 <= i < |ls| ==> ls[i] != [] && IsStripped(ls[i])
    ensures forall i :: 0 <= i < |ls| ==> Strip(ls[i]) == ls[i] && IsNonBlank(ls[i])
  {
    forall i | 0 <= i < |ls| ensures Strip(ls[i]) == ls[i] && IsNonBlank(ls[i]) {
      StripFixpoint(ls[i]);
    }
  }

  // ---------------------------------------------------------------------
  // remove_headers_footers: page counters and the confidentiality marker are
  // deleted, ignoring case

  /** A text character matched against one character of the pattern, written
      in lower case, under `re.IGNORECASE`: a letter also matches its upper
      case, and `i` also matches the dotted capital `İ` (whose lower case is
      `i`) and the dotless `ı` (whose upper case is `I`). Other pattern
      characters match only themselves. */
  predicate FoldMatches(c: char, p: char) {
    if 'a' <= p <= 'z' then
      || c == p
      || c as int == p as int - 32
      || (p == 'i' && (c == '\U{130}' || c == '\U{131}'))
    else c == p
  }

  /** The literal `p` matches case-insensitively at position `i` of `s`. */
  predicate LiteralAt(s: string, i: nat, p: string) {
    i + |p| <= |s| && forall k :: 0 <= k < |p| ==> FoldMatches(s[i + k], p[k])
  }

  /** Length of the match of the `Page \d+ of \d+` alternative at `i`, 0 for
      none. Both `\d+` are greedy and are followed by a non-digit or the end,
      so each takes the whole digit run and there is no other way to match. */
  function PageAt(s: string, i: nat): (n: nat)
    requires i <= |s|
    ensures i + n <= |s|
    ensures n > 0 ==> n >= 11
  {
    if !LiteralAt(s, i, "page ") then 0
    else
      var a := DigitRun(s, i + 5);
      if a == 0 || !LiteralAt(s, i + 5 + a, " of ") then 0
      else
        var b := DigitRun(s, i + 9 + a);
        if b == 0 then 0 else 9 + a + b
  }

  /** Length of the match of `Page \d+ of \d+|CONFIDENTIAL` at `i`, 0 for
      none; the first alternative is tried first. */
  function HeaderAt(s: string, i: nat): (n: nat)
    requires i <= |s|
    ensures i + n <= |s|
    ensures n > 0 ==> n >= 11
  {
    var p := PageAt(s, i);
    if p > 0 then p
    else if LiteralAt(s, i, "confidential") then 12
    else 0
  }

  /** The `Page \d+ of \d+` alternative read declaratively: the literal
      parts match ignoring case, and the digit groups have `a` and `b`
      digits, at least one each. */
  predicate PageShapeAt(s: string, i: nat, a: nat, b: nat) {
    && LiteralAt(s, i, "page ")
    && 1 <= a && DigitsAt(s, i + 5, a)
    && LiteralAt(s, i + 5 + a, " of ")
    && 1 <= b && DigitsAt(s, i + 9 + a, b)
  }

  /** The match the greedy second `\d+` makes: no digit follows it. */
  predicate LongestPageAt(s: string, i: nat, a: nat, b: nat) {
    PageShapeAt(s, i, a, b) && (i + 9 + a + b == |s| || !IsAsciiDigit(s[i + 9 + a + b]))
  }

  predicate ConfidentialAt(s: string, i: nat) {
    LiteralAt(s, i, "confidential")
  }

  /** Either alternative of the pattern matches at `i`. */
  ghost predicate HeaderShapeAt(s: string, i: nat) {
    ConfidentialAt(s, i) || exists a: nat, b: nat :: PageShapeAt(s, i, a, b)
  }

  /** A page counter found by `PageAt` has the declarative shape, with the
      second digit group as long as it can be. */
  lemma PageAtSound(s: string, i: nat)
    requires i <= |s|
    ensures PageAt(s, i) > 0 ==>
      exists a: nat, b: nat :: LongestPageAt(s, i, a, b) && PageAt(s, i) == 9 + a + b
  {
    if PageAt(s, i) > 0 {
      var a := DigitRun(s, i + 5);
      DigitRunMaximal(s, i + 5);
      var b := DigitRun(s, i + 9 + a);
      DigitRunMaximal(s, i + 9 + a);
      assert LongestPageAt(s, i, a, b);
    }
  }

  /** Every page counter is found, and the longest one is the length
      reported. */
  lemma PageAtComplete(s: string, i: nat, a: nat, b: nat)
    requires PageShapeAt(s, i, a, b)
    ensures PageAt(s, i) >= 9 + a + b
    ensures LongestPageAt(s, i, a, b) ==> PageAt(s, i) == 9 + a + b
  {
    assert s[i + 5 + a] == ' ' by {
      assert FoldMatches(s[i + 5 + a + 0], " of "[0]);
    }
    RunOfDigits(s, i + 5, a);
    DigitRunAtLeast(s, i + 9 + a, b);
    if LongestPageAt(s, i, a, b) {
      RunOfDigits(s, i + 9 + a, b);
    }
  }

  /** `HeaderAt` reports a match exactly where one of the two alternatives
      matches. */
  lemma HeaderAtIff(s: string, i: nat)
    requires i <= |s|
    ensures HeaderAt(s, i) > 0 <==> HeaderShapeAt(s, i)
  {
    PageAtSound(s, i);
    if a: nat, b: nat :| PageShapeAt(s, i, a, b) {
      PageAtComplete(s, i, a, b);
    }
  }

  /** The length reported: the whole page counter when there is one, else the
      twelve letters of the marker. */
  lemma HeaderAtLength(s: string, i: nat, a: nat, b: nat)
    requires i <= |s|
    ensures LongestPageAt(s, i, a, b) ==> HeaderAt(s, i) == 9 + a + b
    ensures ConfidentialAt(s, i) && PageAt(s, i) == 0 ==> HeaderAt(s, i) == 12
  {
    if LongestPageAt(s, i, a, b) {
      PageAtComplete(s, i, a, b);
    }
  }

  /** `HeaderAt` at every position of `s`. */
  function HeaderLengths(s: string): (m: nat -> nat)
    ensures MatchLengthsFit(s, m)
    ensures forall k: nat :: k <= |s| ==> m(k) == HeaderAt(s, k)
  {
    (k: nat) => if k <= |s| then HeaderAt(s, k) else 0
  }

  /** `remove_headers_footers`. */
  function RemoveHeadersFooters(s: string): (r: string)
    ensures |r| <= |s|
    ensures IsSubsequence(r, s)
    ensures forall c :: c in r ==> c in s
  {
    var m := HeaderLengths(s);
    DeleteMatchesShorter(s, m, 0);
    DeleteMatchesSubsequence(s, m, 0);
    DeleteMatchesKeepsChars(s, m, 0);
    assert s[0..] == s;
    DeleteMatches(s, m, 0)
  }

  /** Text with no header or footer anywhere is returned unchanged, and text
      returned unchanged had none. */
  lemma RemoveHeadersFootersUnchanged(s: string)
    ensures RemoveHeadersFooters(s) == s <==> forall k :: 0 <= k < |s| ==> !HeaderShapeAt(s, k)
  {
    var m := HeaderLengths(s);
    DeleteMatchesUnchanged(s, m);
    assert NoMatchFrom(s, m, 0) <==> forall k :: 0 <= k < |s| ==> HeaderAt(s, k) == 0;
    forall k | 0 <= k < |s|
      ensures HeaderAt(s, k) == 0 <==> !HeaderShapeAt(s, k)
    {
      HeaderAtIff(s, k);
    }
  }

  /** A text that is exactly one header or footer is deleted entirely. */
  lemma WholeTextHeader(s: string)
    requires 0 < |s| && HeaderAt(s, 0) == |s|
    ensures RemoveHeadersFooters(s) == []
  {
    var m := HeaderLengths(s);
    assert m(0) == |s|;
    assert DeleteMatches(s, m, |s|) == [];
  }

  lemma FooterAt()
    ensures HeaderAt("pAgE 3 OF 10", 0) == 12
  {
    var s := "pAgE 3 OF 10";
    assert LiteralAt(s, 0, "page ");
    RunOfDigits(s, 5, 1);
    assert LiteralAt(s, 6, " of ");
    RunOfDigits(s, 10, 2);
  }

  /** Matching ignores case, and a footer is deleted. */
  lemma FooterDeleted()
    ensures RemoveHeadersFooters("pAgE 3 OF 10") == []
  {
    FooterAt();
    WholeTextHeader("pAgE 3 OF 10");
  }

  lemma DotlessIAt()
    ensures HeaderAt("Conf\U{131}dential", 0) == 12
  {
    var s := "Conf\U{131}dential";
    assert !LiteralAt(s, 0, "page ") by {
      assert "page "[0] == 'p' && !FoldMatches(s[0], 'p');
    }
    assert LiteralAt(s, 0, "confidential");
  }

  /** A dotless `ı` is matched by the `I` of `CONFIDENTIAL`. */
  lemma DotlessIMatched()
    ensures RemoveHeadersFooters("Conf\U{131}dential") == []
  {
    DotlessIAt();
    WholeTextHeader("Conf\U{131}dential");
  }

  // ---------------------------------------------------------------------
  // extract_transaction_lines

  /** Some digit occurs at index `k` or later. */
  predicate HasDigitFrom(s: string, k: nat) {
    exists q :: k <= q < |s| && IsAsciiDigit(s[q])
  }

  /** The pattern `\b(\d{1,2}[/\-]\d{1,2}[/\-]\d{2,4})\b.+?\$?\s*-?\d[\d,]*\.?\d{0,2}`
      matches somewhere at or after `p`, read declaratively: a date matched
      at `q` with groups of `a`, `b`, `c` digits, then at least one character
      for `.+?`, then a digit (the optional `$`, spaces and `-` can all be
      absorbed by `.+?`, and the tail after the digit can match empty). `.`
      excludes only `\n`, which a line never contains. */
  ghost predicate PatternFrom(line: string, p: nat) {
    exists q: nat, a: nat, b: nat, c: nat :: p <= q && DateShapeAt(line, q, a, b, c) && HasDigitFrom(line, q + a + b + c + 3)
  }

  /** `pattern.search(line)` restricted to start positions `p` and later. */
  predicate TransactionFrom(line: string, p: nat)
    requires p <= |line|
    decreases |line| - p
  {
    || (DateAt(line, p).Some? && HasDigitFrom(line, DateAt(line, p).value.End(p) + 1))
    || (p < |line| && TransactionFrom(line, p + 1))
  }

  /** `pattern.search(line)` succeeds. */
  predicate IsTransactionLine(line: string) {
    TransactionFrom(line, 0)
  }

  /** The scan finds a match exactly when the pattern matches somewhere. */
  lemma {:induction false} TransactionFromIff(line: string, p: nat)
    requires p <= |line|
    ensures TransactionFrom(line, p) <==> PatternFrom(line, p)
    decreases |line| - p
  {
    if p < |line| {
      TransactionFromIff(line, p + 1);
      if PatternFrom(line, p + 1) {
        PatternLater(line, p);
      }
    }
    if DateAt(line, p).Some? && HasDigitFrom(line, DateAt(line, p).value.End(p) + 1) {
      PatternHere(line, p);
    }
    if PatternFrom(line, p) {
      PatternHereOrLater(line, p);
    }
  }

  /** A date found at `p` and followed by a digit is a match of the pattern. */
  lemma PatternHere(line: string, p: nat)
    requires p <= |line| && DateAt(line, p).Some?
    requires HasDigitFrom(line, DateAt(line, p).value.End(p) + 1)
    ensures PatternFrom(line, p)
  {
    var d := DateAt(line, p).value;
    assert DateShapeAt(line, p, d.monthLen, d.dayLen, d.yearLen);
  }

  lemma PatternLater(line: string, p: nat)
    requires PatternFrom(line, p + 1)
    ensures PatternFrom(line, p)
  {
    var q: nat, a: nat, b: nat, c: nat :| p + 1 <= q && DateShapeAt(line, q, a, b, c) && HasDigitFrom(line, q + a + b + c + 3);
    assert p <= q;
  }

  /** A match at or after `p` starts at `p`, where the scan finds it, or later. */
  lemma PatternHereOrLater(line: string, p: nat)
    requires p <= |line| && PatternFrom(line, p)
    ensures || (DateAt(line, p).Some? && HasDigitFrom(line, DateAt(line, p).value.End(p) + 1))
            || (p < |line| && PatternFrom(line, p + 1))
  {
    var q: nat, a: nat, b: nat, c: nat :| p <= q && DateShapeAt(line, q, a, b, c) && HasDigitFrom(line, q + a + b + c + 3);
    if q == p {
      DateAtComplete(line, p, a, b, c);
    } else {
      assert p + 1 <= q;
    }
  }

  /** `extract_transaction_lines`. */
  function ExtractTransactionLines(t: string): string {
    JoinLines(Filter(IsTransactionLine, SplitLines(t)))
  }

  /** Reading the result back gives exactly the input lines the pattern
      matches, in their original order. */
  lemma ExtractTransactionLinesReadback(t: string)
    ensures SplitLines(ExtractTransactionLines(t)) == Filter(IsTransactionLine, SplitLines(t))
  {
    var src := SplitLines(t);
    var kept := Filter(IsTransactionLine, src);
    forall i | 0 <= i < |kept| ensures kept[i] != [] && NoLineBreak(kept[i]) {
      assert kept[i] in src;
      assert IsTransactionLine(kept[i]);
    }
    SplitJoin(kept);
  }

  /** Extracting from extracted lines changes nothing. */
  lemma ExtractTransactionLinesIdempotent(t: string)
    ensures ExtractTransactionLines(ExtractTransactionLines(t)) == ExtractTransactionLines(t)
  {
    ExtractTransactionLinesReadback(t);
    FilterIdempotent(IsTransactionLine, SplitLines(t));
  }

  lemma DatedAmountLineShape()
    ensures DateShapeAt("1/2/2020 x 5", 0, 1, 1, 4)
  {
  }

  /** A dated line with an amount after the date is kept. */
  lemma DatedAmountLineKept()
    ensures IsTransactionLine("1/2/2020 x 5")
  {
    var s := "1/2/2020 x 5";
    DatedAmountLineShape();
    DateAtComplete(s, 0, 1, 1, 4);
    assert IsAsciiDigit(s[11]);
  }

  // ---------------------------------------------------------------------
  // preprocess_text

  /** The six keyword flags of `preprocess_text`. */
  datatype Flags = Flags(
    clean: bool,
    normalize: bool,
    removeHeaders: bool,
    dates: bool,
    amounts: bool,
    extractLines: bool)

  const Defaults := Flags(true, true, true, true, true, true)
  const AllOff := Flags(false, false, false, false, false, false)

  /** The six transforms `preprocess_text` can apply. */
  datatype Transforms = Transforms(
    clean: string -> string,
    normalize: string -> string,
    headers: string -> string,
    dates: string -> string,
    amounts: string -> string,
    lines: string -> string)

  /** The transforms of this module; `standardize_amounts` is the parameter `amounts`. */
  function Standard(amounts: string -> string): Transforms {
    Transforms(CleanText, CollapseWhitespace, RemoveHeadersFooters, StandardizeDates, amounts, ExtractTransactionLines)
  }

  /** The body of `preprocess_text` over any transforms: each enabled one in turn. */
  function Preprocess(text: string, f: Flags, tr: Transforms): string {
    var t1 := if f.clean then tr.clean(text) else text;
    var t2 := if f.normalize then tr.normalize(t1) else t1;
    var t3 := if f.removeHeaders then tr.headers(t2) else t2;
    var t4 := if f.dates then tr.dates(t3) else t3;
    var t5 := if f.amounts then tr.amounts(t4) else t4;
    if f.extractLines then tr.lines(t5) else t5
  }

  /** `preprocess_text`. */
  function PreprocessText(text: string, f: Flags, amounts: string -> string): string {
    Preprocess(text, f, Standard(amounts))
  }

  /** One step of the pipeline. */
  datatype Step = Clean | Normalize | Headers | DateFormat | AmountFormat | TransactionLines

  function ApplyStep(st: Step, t: string, tr: Transforms): string {
    match st
    case Clean => tr.clean(t)
    case Normalize => tr.normalize(t)
    case Headers => tr.headers(t)
    case DateFormat => tr.dates(t)
    case AmountFormat => tr.amounts(t)
    case TransactionLines => tr.lines(t)
  }

  function RunSteps(steps: seq<Step>, t: string, tr: Transforms): string
    decreases |steps|
  {
    if steps == [] then t else RunSteps(steps[1..], ApplyStep(steps[0], t, tr), tr)
  }

  lemma {:induction false} RunStepsAppend(a: seq<Step>, b: seq<Step>, t: string, tr: Transforms)
    ensures RunSteps(a + b, t, tr) == RunSteps(b, RunSteps(a, t, tr), tr)
    decreases |a|
  {
    if a != [] {
      assert (a + b)[1..] == a[1..] + b;
      RunStepsAppend(a[1..], b, ApplyStep(a[0], t, tr), tr);
    } else {
      assert a + b == b;
    }
  }

  /** The fixed order of the steps. */
  const Order: seq<Step> := [Clean, Normalize, Headers, DateFormat, AmountFormat, TransactionLines]

  predicate Enabled(f: Flags, st: Step) {
    match st
    case Clean => f.clean
    case Normalize => f.normalize
    case Headers => f.removeHeaders
    case DateFormat => f.dates
    case AmountFormat => f.amounts
    case TransactionLines => f.extractLines
  }

  /** Every step has its place in `Order`. */
  lemma OrderHasEveryStep(st: Step)
    ensures st in Order
  {
  }

  /** No step has two places in `Order`. */
  lemma OrderIsDistinct()
    ensures forall i, j :: 0 <= i < j < |Order| ==> Order[i] != Order[j]
  {
  }

  /** The test "enabled by `f`" as a function value. */
  function EnabledBy(f: Flags): Step -> bool {
    (st: Step) => Enabled(f, st)
  }

  /** The steps a call with flags `f` performs: exactly the enabled steps,
      in the order they have in `Order`. */
  function EnabledSteps(f: Flags): (r: seq<Step>)
    ensures forall st :: st in r <==> Enabled(f, st)
    ensures IsSubsequence(r, Order)
  {
    EnabledStepsMembers(f);
    FilterSubsequence(EnabledBy(f), Order);
    Filter(EnabledBy(f), Order)
  }

  lemma EnabledStepsMembers(f: Flags)
    ensures forall st :: st in Filter(EnabledBy(f), Order) <==> Enabled(f, st)
  {
    forall st ensures st in Filter(EnabledBy(f), Order) <==> Enabled(f, st) {
      if Enabled(f, st) {
        EnabledIsKept(f, st);
      }
      if st in Filter(EnabledBy(f), Order) {
        KeptIsEnabled(f, st);
      }
    }
  }

  lemma EnabledIsKept(f: Flags, st: Step)
    requires Enabled(f, st)
    ensures st in Filter(EnabledBy(f), Order)
  {
    OrderHasEveryStep(st);
    var k :| 0 <= k < |Order| && Order[k] == st;
    assert EnabledBy(f)(Order[k]);
  }

  lemma KeptIsEnabled(f: Flags, st: Step)
    requires st in Filter(EnabledBy(f), Order)
    ensures Enabled(f, st)
  {
    var r := Filter(EnabledBy(f), Order);
    var i :| 0 <= i < |r| && r[i] == st;
    assert EnabledBy(f)(r[i]);
  }

  /** The enabled steps from position `k` of the order on. */
  function EnabledFrom(f: Flags, k: nat): seq<Step>
    requires k <= |Order|
  {
    Filter(EnabledBy(f), Order[k..])
  }

  /** Running the steps from the position of `st` on: `st` if it is
      enabled, then the rest. */
  lemma RunEnabledStep(f: Flags, k: nat, st: Step, t: string, tr: Transforms)
    requires k < |Order| && Order[k] == st
    ensures RunSteps(EnabledFrom(f, k), t, tr) ==
      RunSteps(EnabledFrom(f, k + 1), if Enabled(f, st) then ApplyStep(st, t, tr) else t, tr)
  {
    var s := Order[k..];
    assert s[0] == st && s[1..] == Order[k + 1..];
    var w := if Enabled(f, st) then [st] else [];
    assert EnabledFrom(f, k) == w + EnabledFrom(f, k + 1);
    RunStepsAppend(w, EnabledFrom(f, k + 1), t, tr);
  }

  /** `preprocess_text` runs the enabled steps in the fixed order
      clean, normalize, headers, dates, amounts, lines, whatever the
      transforms are. */
  lemma PreprocessRunsEnabledSteps(text: string, f: Flags, tr: Transforms)
    ensures Preprocess(text, f, tr) == RunSteps(EnabledSteps(f), text, tr)
  {
    var t1 := if f.clean then tr.clean(text) else text;
    var t2 := if f.normalize then tr.normalize(t1) else t1;
    var t3 := if f.removeHeaders then tr.headers(t2) else t2;
    var t4 := if f.dates then tr.dates(t3) else t3;
    var t5 := if f.amounts then tr.amounts(t4) else t4;
    assert Order[0..] == Order;
    RunFirst(f, text, tr);
    RunSecond(f, t1, tr);
    RunThird(f, t2, tr);
    RunFourth(f, t3, tr);
    RunFifth(f, t4, tr);
    RunLast(f, t5, tr);
  }

  lemma RunFirst(f: Flags, t: string, tr: Transforms)
    ensures RunSteps(EnabledFrom(f, 0), t, tr) == RunSteps(EnabledFrom(f, 1), if f.clean then tr.clean(t) else t, tr)
  {
    RunEnabledStep(f, 0, Clean, t, tr);
  }

  lemma RunSecond(f: Flags, t: string, tr: Transforms)
    ensures RunSteps(EnabledFrom(f, 1), t, tr) == RunSteps(EnabledFrom(f, 2), if f.normalize then tr.normalize(t) else t, tr)
  {
    RunEnabledStep(f, 1, Normalize, t, tr);
  }

  lemma RunThird(f: Flags, t: string, tr: Transforms)
    ensures RunSteps(EnabledFrom(f, 2), t, tr) == RunSteps(EnabledFrom(f, 3), if f.removeHeaders then tr.headers(t) else t, tr)
  {
    RunEnabledStep(f, 2, Headers, t, tr);
  }

  lemma RunFourth(f: Flags, t: string, tr: Transforms)
    ensures RunSteps(EnabledFrom(f, 3), t, tr) == RunSteps(EnabledFrom(f, 4), if f.dates then tr.dates(t) else t, tr)
  {
    RunEnabledStep(f, 3, DateFormat, t, tr);
  }

  lemma RunFifth(f: Flags, t: string, tr: Transforms)
    ensures RunSteps(EnabledFrom(f, 4), t, tr) == RunSteps(EnabledFrom(f, 5), if f.amounts then tr.amounts(t) else t, tr)
  {
    RunEnabledStep(f, 4, AmountFormat, t, tr);
  }

  lemma RunLast(f: Flags, t: string, tr: Transforms)
    ensures RunSteps(EnabledFrom(f, 5), t, tr) == if f.extractLines then tr.lines(t) else t
  {
    RunEnabledStep(f, 5, TransactionLines, t, tr);
    assert Order[6..] == [];
  }

  /** With every flag off the text is returned as given. */
  lemma AllOffIsIdentity(text: string, amounts: string -> string)
    ensures PreprocessText(text, AllOff, amounts) == text
    ensures EnabledSteps(AllOff) == []
  {
  }

  /** Header removal only deletes characters, so it adds no line break. */
  lemma HeadersKeepNoLineBreak(t: string)
    requires NoLineBreak(t)
    ensures NoLineBreak(RemoveHeadersFooters(t))
  {
    var r := RemoveHeadersFooters(t);
    forall k | 0 <= k < |r| ensures !IsLineBreak(r[k]) {
      assert r[k] in t;
    }
  }

  /** Date rewriting adds only digits and dashes, so it adds no line break. */
  lemma DatesKeepNoLineBreak(t: string)
    requires NoLineBreak(t)
    ensures NoLineBreak(StandardizeDates(t))
  {
    var r := StandardizeDates(t);
    DatesIntroduceOnlyDigitsAndDash(t, 0);
    forall k | 0 <= k < |r| ensures !IsLineBreak(r[k]) {
      assert r[k] in r;
      assert r[k] in t || IsAsciiDigit(r[k]) || r[k] == '-';
    }
  }

  /** With `normalize` on, the text reaching line extraction has no line
      break: collapsing turns every line break into `' '`, and the later
      steps add none back (`amounts` is assumed not to when it runs). */
  lemma NoLineBreakBeforeExtraction(text: string, f: Flags, amounts: string -> string)
    requires f.normalize
    requires f.amounts ==> forall x :: NoLineBreak(x) ==> NoLineBreak(amounts(x))
    ensures NoLineBreak(PreprocessText(text, f.(extractLines := false), amounts))
  {
    var t1 := if f.clean then CleanText(text) else text;
    var t2 := CollapseWhitespace(t1);
    CollapseShape(t1);
    CollapsedHasNoLineBreak(t2);
    var t3 := if f.removeHeaders then RemoveHeadersFooters(t2) else t2;
    if f.removeHeaders {
      HeadersKeepNoLineBreak(t2);
    }
    var t4 := if f.dates then StandardizeDates(t3) else t3;
    if f.dates {
      DatesKeepNoLineBreak(t3);
    }
  }

  /** With `normalize` and `extract_lines` both on, line extraction sees a
      single line: `preprocess_text` returns the whole text or nothing. */
  lemma NormalizedExtractionAllOrNothing(text: string, f: Flags, amounts: string -> string)
    requires f.normalize && f.extractLines
    requires f.amounts ==> forall x :: NoLineBreak(x) ==> NoLineBreak(amounts(x))
    ensures var whole := PreprocessText(text, f.(extractLines := false), amounts);
      PreprocessText(text, f, amounts) == whole || PreprocessText(text, f, amounts) == []
  {
    var whole := PreprocessText(text, f.(extractLines := false), amounts);
    NoLineBreakBeforeExtraction(text, f, amounts);
    assert PreprocessText(text, f, amounts) == ExtractTransactionLines(whole);
    SplitSingleLine(whole);
  }
}

=== FILE: results.dfy ===
/** Failure-carrying results: Python's exceptions and `None`/empty fallbacks
    become values of these types. */
module Results {

  datatype Option<+T> = None | Some(value: T)

  /** `Err` stands for a raised exception; its payload says which one. */
  datatype Result<+T, +E> = Ok(value: T) | Err(error: E)
}

=== FILE: text.dfy ===
/** The pieces of Python's `str` behaviour the parser's text transforms rest on:
    `isspace`/`strip`, `splitlines`, `"\n".join`, list filtering, and the
    collapse of every whitespace run to one space that both the preprocessing and
    the postprocessing module apply. */
module Text {

  /** `str.isspace()` on one character. It is also what `\s` matches in a
      `str` pattern and what `str.strip()` removes. */
  predicate IsSpace(c: char) {
    || c == ' '
    || '\t' <= c <= '\r'
    || '\U{1C}' <= c <= '\U{1F}'
    || c == '\U{85}' || c == '\U{A0}' || c == '\U{1680}'
    || '\U{2000}' <= c <= '\U{200A}'
    || c == '\U{2028}' || c == '\U{2029}' || c == '\U{202F}' || c == '\U{205F}' || c == '\U{3000}'
  }

  predicate NotSpace(c: char) {
    !IsSpace(c)
  }

  /** The line boundaries `str.splitlines()` splits at; `\r\n` counts as one. */
  predicate IsLineBreak(c: char) {
    || c == '\n' || c == '\r' || c == '\U{0B}' || c == '\U{0C}'
    || '\U{1C}' <= c <= '\U{1E}'
    || c == '\U{85}' || c == '\U{2028}' || c == '\U{2029}'
  }

  predicate NotLineBreak(c: char) {
    !IsLineBreak(c)
  }

  predicate NoLineBreak(s: string) {
    forall i :: 0 <= i < |s| ==> !IsLineBreak(s[i])
  }

  predicate AllSpace(s: string) {
    forall i :: 0 <= i < |s| ==> IsSpace(s[i])
  }

  /** What `str.strip()` leaves: no whitespace at either end. */
  predicate IsStripped(s: string) {
    s == [] || (!IsSpace(s[0]) && !IsSpace(s[|s| - 1]))
  }

  /** The shape the whitespace collapse produces: `' '` is the only
      whitespace character, and no two whitespace characters are adjacent. */
  predicate IsCollapsed(s: string) {
    s == [] || (
      && (IsSpace(s[0]) ==> s[0] == ' ' && (|s| == 1 || !IsSpace(s[1])))
      && IsCollapsed(s[1..]))
  }

  // ---------------------------------------------------------------------
  // Generic sequence helpers

  /** `a` can be obtained from `b` by deleting elements. */
  ghost predicate IsSubsequence<T>(a: seq<T>, b: seq<T>)
    decreases |b|
  {
    a == [] || (b != [] && ((a[0] == b[0] && IsSubsequence(a[1..], b[1..])) || IsSubsequence(a, b[1..])))
  }

  /** A list comprehension `[x for x in s if p(x)]`. */
  function Filter<T>(p: T -> bool, s: seq<T>): (r: seq<T>)
    ensures |r| <= |s|
    ensures forall i :: 0 <= i < |r| ==> p(r[i])
    ensures forall i :: 0 <= i < |s| && p(s[i]) ==> s[i] in r
    ensures forall x :: x in r ==> x in s
  {
    if s == [] then []
    else if p(s[0]) then [s[0]] + Filter(p, s[1..])
    else Filter(p, s[1..])
  }

  /** Filtering deletes elements and keeps the order of the rest. */
  lemma {:induction false} FilterSubsequence<T>(p: T -> bool, s: seq<T>)
    ensures IsSubsequence(Filter(p, s), s)
    decreases |s|
  {
    if s != [] {
      FilterSubsequence(p, s[1..]);
      if p(s[0]) {
        SubsequenceCons(s[0], Filter(p, s[1..]), s[1..]);
        assert [s[0]] + s[1..] == s;
      } else {
        SubsequenceOfSuffix(Filter(p, s[1..]), s, 1);
      }
    }
  }

  lemma {:induction false} FilterAppend<T>(p: T -> bool, a: seq<T>, b: seq<T>)
    ensures Filter(p, a + b) == Filter(p, a) + Filter(p, b)
    decreases |a|
  {
    if a != [] {
      var ab := a + b;
      assert ab != [] && ab[0] == a[0];
      assert ab[1..] == a[1..] + b;
      FilterAppend(p, a[1..], b);
      if p(a[0]) {
        calc {
          Filter(p, ab);
          [a[0]] + Filter(p, a[1..] + b);
          [a[0]] + (Filter(p, a[1..]) + Filter(p, b));
          ([a[0]] + Filter(p, a[1..])) + Filter(p, b);
        }
      } else {
        assert Filter(p, ab) == Filter(p, a[1..] + b);
      }
    } else {
      assert a + b == b;
    }
  }

  /** Filtering twice by the same test changes nothing. */
  lemma {:induction false} FilterIdempotent<T>(p: T -> bool, s: seq<T>)
    ensures Filter(p, Filter(p, s)) == Filter(p, s)
    decreases |s|
  {
    if s != [] {
      FilterIdempotent(p, s[1..]);
      if p(s[0]) {
        assert ([s[0]] + Filter(p, s[1..]))[1..] == Filter(p, s[1..]);
      }
    }
  }

  lemma {:induction false} FilterAll<T>(p: T -> bool, s: seq<T>)
    requires forall i :: 0 <= i < |s| ==> p(s[i])
    ensures Filter(p, s) == s
    decreases |s|
  {
    if s != [] {
      FilterAll(p, s[1..]);
    }
  }

  /** A list comprehension `[f(x) for x in s]`. */
  function Map<A, B>(f: A -> B, s: seq<A>): (r: seq<B>)
    ensures |r| == |s|
    ensures forall i :: 0 <= i < |s| ==> r[i] == f(s[i])
  {
    if s == [] then [] else [f(s[0])] + Map(f, s[1..])
  }

  lemma MapFixpoint<A>(f: A -> A, s: seq<A>)
    requires forall i :: 0 <= i < |s| ==> f(s[i]) == s[i]
    ensures Map(f, s) == s
  {
  }

  function Concat(ls: seq<string>): string {
    if ls == [] then [] else ls[0] + Concat(ls[1..])
  }

  function DropLineBreaks(s: string): string {
    Filter(NotLineBreak, s)
  }

  // ---------------------------------------------------------------------
  // str.strip()

  /** The end of the run of whitespace that starts at `i`. */
  function SpaceRunEnd(s: string, i: nat): (k: nat)
    requires i <= |s|
    ensures i <= k <= |s|
    ensures forall m :: i <= m < k ==> IsSpace(s[m])
    ensures k == |s| || !IsSpace(s[k])
    decreases |s| - i
  {
    if i < |s| && IsSpace(s[i]) then SpaceRunEnd(s, i + 1) else i
  }

  /** The start of the run of whitespace that ends at `j`, not going below `lo`. */
  function SpaceRunStart(s: string, lo: nat, j: nat): (k: nat)
    requires lo <= j <= |s|
    ensures lo <= k <= j
    ensures forall m :: k <= m < j ==> IsSpace(s[m])
    ensures k == lo || !IsSpace(s[k - 1])
    decreases j
  {
    if j > lo && IsSpace(s[j - 1]) then SpaceRunStart(s, lo, j - 1) else j
  }

  /** `str.strip()`: the text between its leading and its trailing whitespace. */
  function Strip(s: string): (r: string)
    ensures IsStripped(r)
    ensures var i := SpaceRunEnd(s, 0);
      && i + |r| <= |s| && r == s[i..i + |r|]
      && AllSpace(s[..i]) && AllSpace(s[i + |r|..])
    ensures r == [] <==> AllSpace(s)
  {
    var i := SpaceRunEnd(s, 0);
    var j := SpaceRunStart(s, i, |s|);
    StripSlice(s, i, j);
    s[i..j]
  }

  /** The slice between a leading and a trailing run of whitespace. */
  lemma StripSlice(s: string, i: nat, j: nat)
    requires i <= j <= |s|
    requires forall m :: 0 <= m < i ==> IsSpace(s[m])
    requires forall m :: j <= m < |s| ==> IsSpace(s[m])
    requires i == |s| || !IsSpace(s[i])
    requires j == i || !IsSpace(s[j - 1])
    ensures IsStripped(s[i..j]) && AllSpace(s[..i]) && AllSpace(s[j..])
    ensures s[i..j] == [] <==> AllSpace(s)
  {
    var r := s[i..j];
    assert AllSpace(s[..i]) && AllSpace(s[j..]);
    assert i == j ==> AllSpace(s);
    assert r != [] ==> r[0] == s[i] && r[|r| - 1] == s[j - 1];
  }

  /** Text that is already stripped is returned unchanged, so `strip` is idempotent. */
  lemma StripFixpoint(s: string)
    requires IsStripped(s)
    ensures Strip(s) == s
  {
  }

  lemma StripIdempotent(s: string)
    ensures Strip(Strip(s)) == Strip(s)
  {
    StripFixpoint(Strip(s));
  }

  /** `strip` removes whitespace only: the other characters come through in order. */
  lemma StripKeepsNonSpace(s: string)
    ensures Filter(NotSpace, Strip(s)) == Filter(NotSpace, s)
  {
    var r := Strip(s);
    var i := SpaceRunEnd(s, 0);
    var a, c := s[..i], s[i + |r|..];
    assert s == a + r + c;
    FilterDropsEnds(NotSpace, a, r, c);
  }

  /** Filtering out both ends entirely leaves the middle's survivors. */
  lemma FilterDropsEnds<T>(p: T -> bool, a: seq<T>, r: seq<T>, c: seq<T>)
    requires forall k :: 0 <= k < |a| ==> !p(a[k])
    requires forall k :: 0 <= k < |c| ==> !p(c[k])
    ensures Filter(p, a + r + c) == Filter(p, r)
  {
    FilterAppend3(p, a, r, c);
    FilterNone(p, a);
    FilterNone(p, c);
    assert [] + Filter(p, r) + [] == Filter(p, r);
  }

  /** No line break survives `strip` of a line-break-free string, nor appears out of nowhere. */
  lemma StripKeepsNoLineBreak(s: string)
    requires NoLineBreak(s)
    ensures NoLineBreak(Strip(s))
  {
    var r := Strip(s);
    var i := SpaceRunEnd(s, 0);
    forall k | 0 <= k < |r| ensures !IsLineBreak(r[k]) {
      assert r[k] == s[i + k];
    }
  }

  // ---------------------------------------------------------------------
  // str.splitlines() and "\n".join(...)

  /** Index of the first line boundary, or `|s|` when there is none. */
  function LineEnd(s: string): (k: nat)
    ensures k <= |s|
    ensures forall i :: 0 <= i < k ==> !IsLineBreak(s[i])
    ensures k < |s| ==> IsLineBreak(s[k])
  {
    if s == [] || IsLineBreak(s[0]) then 0 else 1 + LineEnd(s[1..])
  }

  /** Width of the boundary at `k`: two for `\r\n`, one otherwise. */
  function BreakWidth(s: string, k: nat): (w: nat)
    requires k < |s| && IsLineBreak(s[k])
    ensures 1 <= w <= 2 && k + w <= |s|
    ensures forall i :: k <= i < k + w ==> IsLineBreak(s[i])
  {
    if s[k] == '\r' && k + 1 < |s| && s[k + 1] == '\n' then 2 else 1
  }

  /** `str.splitlines()`: the text cut at every line boundary; a boundary
      at the very end does not open a final empty line, and `""` has no lines. */
  function SplitLines(s: string): (lines: seq<string>)
    ensures lines == [] <==> s == []
    ensures forall i :: 0 <= i < |lines| ==> NoLineBreak(lines[i])
    ensures Concat(lines) == DropLineBreaks(s)
    decreases |s|
  {
    if s == [] then []
    else
      var k := LineEnd(s);
      if k == |s| then
        FilterAll(NotLineBreak, s);
        [s]
      else
        var w := BreakWidth(s, k);
        var p, q, r := s[..k], s[k..k + w], s[k + w..];
        var rest := SplitLines(r);
        Split3(s, k, k + w);
        DropFirstLine(p, q, r);
        ConcatCons(p, rest);
        [p] + rest
  }

  /** Dropping the line breaks of a first line `p`, the boundary `q` after
      it, and the rest `r`. */
  lemma DropFirstLine(p: string, q: string, r: string)
    requires NoLineBreak(p)
    requires forall i :: 0 <= i < |q| ==> IsLineBreak(q[i])
    ensures DropLineBreaks(p + q + r) == p + DropLineBreaks(r)
  {
    FilterAppend3(NotLineBreak, p, q, r);
    FilterAll(NotLineBreak, p);
    FilterNone(NotLineBreak, q);
    AppendEmptyMiddle(p, Filter(NotLineBreak, q), Filter(NotLineBreak, r));
  }

  lemma Split3<T>(s: seq<T>, i: nat, j: nat)
    requires i <= j <= |s|
    ensures s == s[..i] + s[i..j] + s[j..]
  {
  }

  lemma ConcatCons(p: string, rest: seq<string>)
    ensures Concat([p] + rest) == p + Concat(rest)
  {
    assert ([p] + rest)[1..] == rest;
  }

  lemma AppendEmptyMiddle<T>(a: seq<T>, b: seq<T>, c: seq<T>)
    requires b == []
    ensures a + b + c == a + c
  {
  }

  lemma FilterAppend3<T>(p: T -> bool, a: seq<T>, b: seq<T>, c: seq<T>)
    ensures Filter(p, a + b + c) == Filter(p, a) + Filter(p, b) + Filter(p, c)
  {
    FilterAppend(p, a + b, c);
    FilterAppend(p, a, b);
  }

  lemma {:induction false} FilterNone<T>(p: T -> bool, s: seq<T>)
    requires forall i :: 0 <= i < |s| ==> !p(s[i])
    ensures Filter(p, s) == []
    decreases |s|
  {
    if s != [] {
      FilterNone(p, s[1..]);
    }
  }

  /** `"\n".join(ls)`. */
  function JoinLines(ls: seq<string>): string {
    if ls == [] then []
    else if |ls| == 1 then ls[0]
    else ls[0] + "\n" + JoinLines(ls[1..])
  }

  lemma LineEndAtJoin(a: string, b: string)
    requires NoLineBreak(a)
    ensures LineEnd(a + "\n" + b) == |a|
    decreases |a|
  {
    if a != [] {
      assert (a + "\n" + b)[1..] == a[1..] + "\n" + b;
      LineEndAtJoin(a[1..], b);
    }
  }

  lemma LineEndNoBreak(a: string)
    requires NoLineBreak(a)
    ensures LineEnd(a) == |a|
    decreases |a|
  {
    if a != [] {
      LineEndNoBreak(a[1..]);
    }
  }

  /** Splitting text joined from break-free lines gives those lines back,
      empty ones included, provided the last line is not empty (a final
      boundary opens no line). */
  lemma {:induction false} SplitJoin(ls: seq<string>)
    requires forall i :: 0 <= i < |ls| ==> NoLineBreak(ls[i])
    requires ls != [] ==> ls[|ls| - 1] != []
    ensures SplitLines(JoinLines(ls)) == ls
    decreases |ls|
  {
    if |ls| == 1 {
      LineEndNoBreak(ls[0]);
    } else if |ls| > 1 {
      var s := JoinLines(ls);
      var rest := JoinLines(ls[1..]);
      assert s == ls[0] + "\n" + rest;
      LineEndAtJoin(ls[0], rest);
      assert s[|ls[0]|] == '\n';
      assert BreakWidth(s, |ls[0]|) == 1;
      assert s[..|ls[0]|] == ls[0];
      assert s[|ls[0]| + 1..] == rest;
      SplitJoin(ls[1..]);
    }
  }

  /** The first boundary ends the first line: `\r\n` counts as one
      boundary, and so does a lone `\r` or any other boundary character. */
  predicate IsBoundaryBefore(q: string, r: string) {
    || q == "\r\n"
    || (|q| == 1 && IsLineBreak(q[0]) && (q[0] == '\r' ==> r == [] || r[0] != '\n'))
  }

  lemma {:induction false} LineEndBefore(a: string, b: string)
    requires NoLineBreak(a) && b != [] && IsLineBreak(b[0])
    ensures LineEnd(a + b) == |a|
    decreases |a|
  {
    if a != [] {
      assert (a + b)[1..] == a[1..] + b;
      LineEndBefore(a[1..], b);
    }
  }

  /** A break-free first line `p`, then one boundary `q`: the lines are `p`
      followed by the lines of the rest. */
  lemma SplitLinesCons(p: string, q: string, r: string)
    requires NoLineBreak(p) && IsBoundaryBefore(q, r)
    ensures SplitLines(p + q + r) == [p] + SplitLines(r)
  {
    var s := p + q + r;
    assert s == p + (q + r);
    LineEndBefore(p, q + r);
    assert s[|p|] == q[0];
    assert BreakWidth(s, |p|) == |q|;
    assert s[..|p|] == p;
    assert s[|p| + |q|..] == r;
  }

  /** `\r\n` between two lines is one boundary. */
  lemma SplitCrLf(a: string, b: string)
    requires NoLineBreak(a) && NoLineBreak(b) && b != []
    ensures SplitLines(a + "\r\n" + b) == [a, b]
  {
    SplitSingleLine(b);
    SplitLinesCons(a, "\r\n", b);
  }

  /** Two `\n` in a row leave an empty line between the lines around them. */
  lemma SplitEmptyLine(a: string, b: string)
    requires NoLineBreak(a) && NoLineBreak(b) && b != []
    ensures SplitLines(a + "\n\n" + b) == [a, "", b]
  {
    var r := "\n" + b;
    SplitLeadingBreak(b);
    SplitLinesCons(a, "\n", r);
    BreakThenBreak(a, b);
    assert [a] + ["", b] == [a, "", b];
  }

  lemma BreakThenBreak(a: string, b: string)
    ensures a + "\n" + ("\n" + b) == a + "\n\n" + b
  {
  }

  lemma SplitLeadingBreak(b: string)
    requires NoLineBreak(b) && b != []
    ensures SplitLines("\n" + b) == ["", b]
  {
    SplitSingleLine(b);
    SplitLinesCons([], "\n", b);
    assert [] + "\n" + b == "\n" + b;
  }

  /** Text with no line break is one line, or none when empty. */
  lemma SplitSingleLine(s: string)
    requires NoLineBreak(s)
    ensures SplitLines(s) == (if s == [] then [] else [s])
  {
    LineEndNoBreak(s);
  }

  // ---------------------------------------------------------------------
  // Whitespace runs collapsed to one space

  /** Each maximal run of whitespace replaced by a single `' '`; its
      properties are the lemmas below. */
  function CollapseWhitespace(s: string): string {
    if s == [] then []
    else if IsSpace(s[0]) then
      if |s| > 1 && IsSpace(s[1]) then CollapseWhitespace(s[1..])
      else [' '] + CollapseWhitespace(s[1..])
    else [s[0]] + CollapseWhitespace(s[1..])
  }

  lemma CollapseUnfold(c: char, u: string)
    ensures CollapseWhitespace([c] + u) ==
      if !IsSpace(c) then [c] + CollapseWhitespace(u)
      else if u != [] && IsSpace(u[0]) then CollapseWhitespace(u)
      else [' '] + CollapseWhitespace(u)
  {
    var s := [c] + u;
    assert s[0] == c && s[1..] == u;
    assert |s| > 1 ==> s[1] == u[0];
  }

  /** The substitution leaves `' '` as the only whitespace, never two
      whitespace characters side by side, keeps the first character's class,
      and maps only the empty text to the empty text. */
  lemma {:induction false} CollapseShape(s: string)
    ensures IsCollapsed(CollapseWhitespace(s))
    ensures CollapseWhitespace(s) == [] <==> s == []
    ensures s != [] ==> (IsSpace(CollapseWhitespace(s)[0]) <==> IsSpace(s[0]))
    decreases |s|
  {
    if s != [] {
      var u := s[1..];
      assert s == [s[0]] + u;
      CollapseUnfold(s[0], u);
      CollapseShape(u);
      var r := CollapseWhitespace(s);
      if r != CollapseWhitespace(u) {
        assert r[1..] == CollapseWhitespace(u);
      }
    }
  }

  /** The non-whitespace characters come through unchanged and in order. */
  lemma {:induction false} CollapseKeepsNonSpace(s: string)
    ensures Filter(NotSpace, CollapseWhitespace(s)) == Filter(NotSpace, s)
    decreases |s|
  {
    if s != [] {
      var u := s[1..];
      assert s == [s[0]] + u;
      CollapseUnfold(s[0], u);
      CollapseKeepsNonSpace(u);
      var r := CollapseWhitespace(s);
      if r != CollapseWhitespace(u) {
        assert r == [r[0]] + CollapseWhitespace(u);
        FilterAppend(NotSpace, [r[0]], CollapseWhitespace(u));
      }
      FilterAppend(NotSpace, [s[0]], u);
    }
  }

  /** Text already in collapsed shape is a fixpoint of the substitution. */
  lemma {:induction false} CollapseFixpoint(s: string)
    requires IsCollapsed(s)
    ensures CollapseWhitespace(s) == s
    decreases |s|
  {
    if s != [] {
      CollapseFixpoint(s[1..]);
    }
  }

  lemma CollapseIdempotent(s: string)
    ensures CollapseWhitespace(CollapseWhitespace(s)) == CollapseWhitespace(s)
  {
    CollapseShape(s);
    CollapseFixpoint(CollapseWhitespace(s));
  }

  /** The substitution introduces no character but `' '`. */
  lemma {:induction false} CollapseChars(s: string)
    ensures forall c :: c in CollapseWhitespace(s) ==> c in s || c == ' '
    decreases |s|
  {
    if s != [] {
      var u := s[1..];
      assert s == [s[0]] + u;
      CollapseUnfold(s[0], u);
      CollapseChars(u);
    }
  }

  /** Two pieces that do not meet in whitespace collapse independently. */
  lemma {:induction false} CollapseAppend(a: string, t: string)
    requires a == [] || t == [] || !IsSpace(a[|a| - 1]) || !IsSpace(t[0])
    ensures CollapseWhitespace(a + t) == CollapseWhitespace(a) + CollapseWhitespace(t)
    decreases |a|
  {
    if a == [] {
      assert a + t == t;
    } else if |a| == 1 {
      CollapseAppendOne(a[0], t);
    } else {
      assert a[1..][|a| - 2] == a[|a| - 1];
      CollapseAppend(a[1..], t);
      assert a == [a[0]] + a[1..];
      assert a + t == [a[0]] + (a[1..] + t);
      CollapseAppendStep(a[0], a[1..], t);
    }
  }

  /** The inductive step of `CollapseAppend`: one more character in front. */
  lemma CollapseAppendStep(a0: char, a': string, t: string)
    requires a' != []
    requires CollapseWhitespace(a' + t) == CollapseWhitespace(a') + CollapseWhitespace(t)
    ensures CollapseWhitespace([a0] + (a' + t)) == CollapseWhitespace([a0] + a') + CollapseWhitespace(t)
  {
    if !IsSpace(a0) {
      AppendStepWord(a0, a', t);
    } else if IsSpace(a'[0]) {
      AppendStepRun(a0, a', t);
    } else {
      AppendStepLast(a0, a', t);
    }
  }

  lemma AppendStepWord(a0: char, a': string, t: string)
    requires a' != [] && !IsSpace(a0)
    requires CollapseWhitespace(a' + t) == CollapseWhitespace(a') + CollapseWhitespace(t)
    ensures CollapseWhitespace([a0] + (a' + t)) == CollapseWhitespace([a0] + a') + CollapseWhitespace(t)
  {
    CollapseUnfoldWord(a0, a' + t);
    CollapseUnfoldWord(a0, a');
    ConsAssoc(a0, CollapseWhitespace(a' + t), CollapseWhitespace(a'), CollapseWhitespace(t));
  }

  lemma AppendStepRun(a0: char, a': string, t: string)
    requires a' != [] && IsSpace(a0) && IsSpace(a'[0])
    requires CollapseWhitespace(a' + t) == CollapseWhitespace(a') + CollapseWhitespace(t)
    ensures CollapseWhitespace([a0] + (a' + t)) == CollapseWhitespace([a0] + a') + CollapseWhitespace(t)
  {
    assert (a' + t)[0] == a'[0];
    CollapseUnfoldRun(a0, a' + t);
    CollapseUnfoldRun(a0, a');
  }

  lemma AppendStepLast(a0: char, a': string, t: string)
    requires a' != [] && IsSpace(a0) && !IsSpace(a'[0])
    requires CollapseWhitespace(a' + t) == CollapseWhitespace(a') + CollapseWhitespace(t)
    ensures CollapseWhitespace([a0] + (a' + t)) == CollapseWhitespace([a0] + a') + CollapseWhitespace(t)
  {
    assert (a' + t)[0] == a'[0];
    CollapseUnfoldLast(a0, a' + t);
    CollapseUnfoldLast(a0, a');
    ConsAssoc(' ', CollapseWhitespace(a' + t), CollapseWhitespace(a'), CollapseWhitespace(t));
  }

  lemma ConsAssoc<T>(c: T, x: seq<T>, y: seq<T>, z: seq<T>)
    requires x == y + z
    ensures [c] + x == ([c] + y) + z
  {
  }

  lemma CollapseUnfoldWord(c: char, u: string)
    requires !IsSpace(c)
    ensures CollapseWhitespace([c] + u) == [c] + CollapseWhitespace(u)
  {
    CollapseUnfold(c, u);
  }

  lemma CollapseUnfoldRun(c: char, u: string)
    requires IsSpace(c) && u != [] && IsSpace(u[0])
    ensures CollapseWhitespace([c] + u) == CollapseWhitespace(u)
  {
    CollapseUnfold(c, u);
  }

  lemma CollapseUnfoldLast(c: char, u: string)
    requires IsSpace(c) && (u == [] || !IsSpace(u[0]))
    ensures CollapseWhitespace([c] + u) == [' '] + CollapseWhitespace(u)
  {
    CollapseUnfold(c, u);
  }

  lemma CollapseAppendOne(c: char, t: string)
    requires t == [] || !IsSpace(c) || !IsSpace(t[0])
    ensures CollapseWhitespace([c] + t) == CollapseWhitespace([c]) + CollapseWhitespace(t)
  {
    CollapseUnfold(c, t);
    CollapseUnfold(c, []);
    assert [c] + [] == [c];
  }

  /** A run of whitespace before a non-space character becomes exactly one `' '`. */
  lemma {:induction false} CollapseRunPrefix(w: string, b: string)
    requires w != [] && AllSpace(w)
    requires b != [] && !IsSpace(b[0])
    ensures CollapseWhitespace(w + b) == " " + CollapseWhitespace(b)
    decreases |w|
  {
    var u := w[1..] + b;
    assert w + b == [w[0]] + u;
    CollapseUnfold(w[0], u);
    if |w| > 1 {
      assert u[0] == w[1];
      CollapseRunPrefix(w[1..], b);
    } else {
      assert u == b;
    }
  }

  /** A run of whitespace after a non-space character and before another one
      becomes exactly one `' '`, whatever it contained: the substitution's
      defining behaviour, stated on whole texts. */
  lemma CollapseRun(a: string, w: string, b: string)
    requires a != [] && !IsSpace(a[|a| - 1])
    requires w != [] && AllSpace(w)
    requires b != [] && !IsSpace(b[0])
    ensures CollapseWhitespace(a + w + b) == CollapseWhitespace(a) + " " + CollapseWhitespace(b)
  {
    var t := w + b;
    AppendAssoc(a, w, b);
    CollapseAppend(a, t);
    CollapseRunPrefix(w, b);
    AppendAssoc(CollapseWhitespace(a), " ", CollapseWhitespace(b));
  }

  lemma AppendAssoc<T>(x: seq<T>, y: seq<T>, z: seq<T>)
    ensures x + y + z == x + (y + z)
  {
  }

  /** Collapsed text has no line break left: every line boundary is whitespace. */
  lemma {:induction false} CollapsedHasNoLineBreak(s: string)
    requires IsCollapsed(s)
    ensures NoLineBreak(s)
    decreases |s|
  {
    if s != [] {
      CollapsedHasNoLineBreak(s[1..]);
      assert forall i :: 1 <= i < |s| ==> s[i] == s[1..][i - 1];
    }
  }

  /** Any infix of collapsed text is collapsed. */
  lemma {:induction false} CollapsedInfix(s: string, i: nat, j: nat)
    requires IsCollapsed(s) && i <= j <= |s|
    ensures IsCollapsed(s[i..j])
    decreases |s|
  {
    if i > 0 {
      assert s[i..j] == s[1..][i - 1..j - 1];
      CollapsedInfix(s[1..], i - 1, j - 1);
    } else if j > 0 {
      assert s[..j][1..] == s[1..][..j - 1];
      CollapsedInfix(s[1..], 0, j - 1);
      if j > 1 {
        assert s[..j][1] == s[1];
      }
    }
  }

  // ---------------------------------------------------------------------
  // Deleting the matches of a pattern that never matches the empty string

  /** `m(k)` is the length of the pattern's match starting at position `k`
      of `s`, 0 where it does not match; a match stays inside the text. */
  predicate MatchLengthsFit(s: string, m: nat -> nat) {
    forall k: nat :: k <= |s| ==> k + m(k) <= |s|
  }

  /** Deleting a pattern's matches from `s[i..]`: scanning left to right, a match is
      deleted and the scan resumes after it; elsewhere the character is kept. */
  function DeleteMatches(s: string, m: nat -> nat, i: nat): string
    requires i <= |s| && MatchLengthsFit(s, m)
    decreases |s| - i
  {
    if i == |s| then []
    else if m(i) > 0 then DeleteMatches(s, m, i + m(i))
    else [s[i]] + DeleteMatches(s, m, i + 1)
  }

  /** A match at `i` is deleted and the scan resumes after it. */
  lemma DeleteMatchesSkip(s: string, m: nat -> nat, i: nat)
    requires i < |s| && MatchLengthsFit(s, m) && m(i) > 0
    ensures DeleteMatches(s, m, i) == DeleteMatches(s, m, i + m(i))
  {
  }

  /** Where nothing matches, the character is kept. */
  lemma DeleteMatchesKeep(s: string, m: nat -> nat, i: nat)
    requires i < |s| && MatchLengthsFit(s, m) && m(i) == 0
    ensures DeleteMatches(s, m, i) == [s[i]] + DeleteMatches(s, m, i + 1)
  {
  }

  predicate NoMatchFrom(s: string, m: nat -> nat, i: nat) {
    forall k: nat :: i <= k < |s| ==> m(k) == 0
  }

  /** Deleting never lengthens the text. */
  lemma {:induction false} DeleteMatchesShorter(s: string, m: nat -> nat, i: nat)
    requires i <= |s| && MatchLengthsFit(s, m)
    ensures |DeleteMatches(s, m, i)| <= |s| - i
    decreases |s| - i
  {
    if i < |s| {
      if m(i) > 0 {
        DeleteMatchesShorter(s, m, i + m(i));
      } else {
        DeleteMatchesShorter(s, m, i + 1);
      }
    }
  }

  /** The result is the text with some characters deleted. */
  lemma {:induction false} DeleteMatchesSubsequence(s: string, m: nat -> nat, i: nat)
    requires i <= |s| && MatchLengthsFit(s, m)
    ensures IsSubsequence(DeleteMatches(s, m, i), s[i..])
    decreases |s| - i
  {
    if i < |s| {
      var t := s[i..];
      if m(i) > 0 {
        var n := m(i);
        var r := DeleteMatches(s, m, i + n);
        DeleteMatchesSubsequence(s, m, i + n);
        assert t[n..] == s[i + n..];
        SubsequenceOfSuffix(r, t, n);
      } else {
        var r := DeleteMatches(s, m, i + 1);
        DeleteMatchesSubsequence(s, m, i + 1);
        assert t == [s[i]] + s[i + 1..];
        SubsequenceCons(s[i], r, s[i + 1..]);
      }
    }
  }

  /** A subsequence of a suffix of `b` is a subsequence of `b`. */
  lemma {:induction false} SubsequenceOfSuffix<T>(a: seq<T>, b: seq<T>, n: nat)
    requires n <= |b| && IsSubsequence(a, b[n..])
    ensures IsSubsequence(a, b)
    decreases n
  {
    if n > 0 {
      assert b[1..][n - 1..] == b[n..];
      SubsequenceOfSuffix(a, b[1..], n - 1);
    }
  }

  lemma SubsequenceCons<T>(x: T, a: seq<T>, b: seq<T>)
    requires IsSubsequence(a, b)
    ensures IsSubsequence([x] + a, [x] + b)
  {
    assert ([x] + a)[1..] == a;
    assert ([x] + b)[1..] == b;
  }

  /** Characters are lost exactly when the pattern matches somewhere: a
      match the scan steps over lies inside an earlier match it deleted. */
  lemma {:induction false} DeleteMatchesShorterIff(s: string, m: nat -> nat, i: nat)
    requires i <= |s| && MatchLengthsFit(s, m)
    ensures |DeleteMatches(s, m, i)| == |s| - i <==> NoMatchFrom(s, m, i)
    decreases |s| - i
  {
    if i < |s| {
      if m(i) > 0 {
        DeleteMatchesShorter(s, m, i + m(i));
      } else {
        DeleteMatchesShorterIff(s, m, i + 1);
      }
    }
  }

  /** Text in which the pattern never matches is kept as it is. */
  lemma {:induction false} DeleteMatchesNone(s: string, m: nat -> nat, i: nat)
    requires i <= |s| && MatchLengthsFit(s, m) && NoMatchFrom(s, m, i)
    ensures DeleteMatches(s, m, i) == s[i..]
    decreases |s| - i
  {
    if i < |s| {
      DeleteMatchesNone(s, m, i + 1);
      assert s[i..] == [s[i]] + s[i + 1..];
    }
  }

  /** The text comes back unchanged exactly when the pattern matches nowhere. */
  lemma DeleteMatchesUnchanged(s: string, m: nat -> nat)
    requires MatchLengthsFit(s, m)
    ensures DeleteMatches(s, m, 0) == s <==> NoMatchFrom(s, m, 0)
  {
    DeleteMatchesShorterIff(s, m, 0);
    if NoMatchFrom(s, m, 0) {
      DeleteMatchesNone(s, m, 0);
    }
  }

  /** Every character of the result occurs in the text. */
  lemma {:induction false} DeleteMatchesKeepsChars(s: string, m: nat -> nat, i: nat)
    requires i <= |s| && MatchLengthsFit(s, m)
    ensures forall c :: c in DeleteMatches(s, m, i) ==> c in s
    decreases |s| - i
  {
    if i < |s| {
      if m(i) > 0 {
        DeleteMatchesKeepsChars(s, m, i + m(i));
      } else {
        DeleteMatchesKeepsChars(s, m, i + 1);
      }
    }
  }
}
